=== FILE: README.md ===
# OCR backend over a local inference engine, modelled in Dafny

The service accepts an uploaded image and checks it in a fixed order: the file
name is present, the size is within bounds, the sniffed MIME type is allowed,
and the bytes decode as an image. It then base64-encodes the image and asks an
Ollama inference engine to read it. The chat endpoint is tried first. Only when
that endpoint does not exist is the generate endpoint tried, once. The engine's
text is cleaned of code fences and boilerplate lead-ins. Every failure of
extraction, listing and switching is mapped to a standard error body
`{error, message, code}`; the engine-status report instead answers its own
failures with a report whose status is "disconnected" or "error". Beside extraction, the
service reports its health, lists the engine's vision models, switches the
active model after checking that the engine has it, and reports the engine's
status.

The model has one module per source file:

- `Config`: settings and their derived values.
- `Errors`: the exception taxonomy and the error body.
- `ImageUtils`: upload validation and encoding.
- `ModelUtils`: the supported-model file.
- `Cleaning`: the text cleaner.
- `OllamaClient`: request classification, reply parsing, the fallback and the health probe.
- `Api`: the endpoints' decision rules.

Supporting modules:

- `Text`: Python's `strip`, `lower`, `split` and `join`, decimal rendering and subsequences.
- `Base64`: the standard alphabet with padding, and a strict decoder.
- `Json`: decoded JSON values and Python truthiness.
- `Schemas`: the response records.
- `Common`: `Option`, `Result` and `Outcome`.

Foreign code enters as data or as parameters:

- Every exchange with the engine is a `Reply` or a `TagsReply`, the outcome the transport produced.
- The MIME sniffer, the image decoder and the rendering of a size in megabytes are the functions of an `Oracles` value.
- The supported-model file is a flag saying whether it exists, plus the lines it holds.
- The mutable service state (the settings' model and the client's model) is a `Server` value threaded through `Api.SetModel`.

## Model

| member | source | states |
|---|---|---|
| Config.MaxUploadBytes | backend/app/config.py:23-26 | the ceiling is a whole number of mebibytes, exactly the configured count |
| Config.CommaList | backend/app/config.py:28-36 | one item per comma-separated piece, none containing a comma, each the Python strip of its piece |
| Config.CommaListOrder | backend/app/config.py:28-31 | items correspond one-to-one with the pieces, and rejoining the pieces with commas restores the setting |
| Config.CommaListOfJoin | backend/app/config.py:28-36 | items written without blanks or commas are recovered exactly from their comma-joined text |
| Config.DefaultMaxUploadBytes | backend/app/config.py:13 | with nothing configured the ceiling is 10485760 bytes |
| Config.DefaultAllowedMimeTypes | backend/app/config.py:14 | with nothing configured the allow-list is PNG, JPEG, WebP in that order |
| Config.DefaultCorsOrigins | backend/app/config.py:17 | with nothing configured the origins are the two local front ends |
| Config.MimeTypeItems | backend/app/config.py:28-31 | the MIME allow-list has one type per comma-separated piece of the setting, each free of commas and surrounding whitespace |
| Config.CorsOriginItems | backend/app/config.py:33-36 | the origin list has one origin per comma-separated piece of the setting, each free of commas and surrounding whitespace |
| Text.StripSpec | backend/app/ollama_client.py:102 | the result is the input minus its maximal leading and trailing runs of Python whitespace |
| Text.StripUnique | backend/app/ollama_client.py:102 | any cut that removes exactly the maximal whitespace runs is the strip |
| Text.StripIdempotent | backend/app/ollama_client.py:120 | stripping twice is stripping once, so the final strip of the cleaner is harmless |
| Text.JoinSplit | backend/app/config.py:31 | joining the pieces of a split with the delimiter gives back the string |
| Text.SplitJoin | backend/app/config.py:31 | splitting a join of delimiter-free pieces gives back the pieces |
| Errors.ConnectionError | backend/app/errors.py:13-16 | a connection error carries its message and status 503 |
| Errors.TimeoutError | backend/app/errors.py:19-22 | a timeout error carries status 504 |
| Errors.ModelError | backend/app/errors.py:25-30 | a model error names the model in its default message and carries status 503 |
| Errors.ImageValidationError | backend/app/errors.py:33-36 | an upload rejection is an HTTP exception of status 400 whose detail is the message |
| Errors.CreateErrorResponse | backend/app/errors.py:39-58 | engine errors report their class name, message and status; HTTP exceptions report "ValidationError", detail and status; anything else reports a fixed 500 body |
| Errors.ErrorBody | backend/app/schemas.py:17-20 | the sent body has exactly the keys error, message and code, holding the record's fields |
| Errors.ClassNameInjective | backend/app/errors.py:41-46 | distinct engine error classes give distinct error names |
| Errors.InternalErrorsIndistinguishable | backend/app/errors.py:53-58 | the text of an unexpected exception never reaches the body |
| Errors.StatusCodes | backend/app/errors.py:13-36 | the bodies of connection, timeout, model and validation errors carry 503, 504, 503 and 400 |
| Base64.Encode | backend/app/image_utils.py:77-79 | four characters per started group of three bytes |
| Base64.EncodePadded | backend/app/image_utils.py:77-79 | the encoding is alphabet characters followed by as many '=' as the last group lacks bytes |
| Base64.DecodeEncode | backend/app/image_utils.py:77-79 | decoding an encoding returns the original bytes |
| Base64.EncodeDecode | backend/app/image_utils.py:77-79 | whatever the strict decoder accepts is the encoding of what it returns |
| Base64.StandardVectors | backend/app/image_utils.py:77-79 | the encoder reproduces the RFC 4648 section 10 vectors for "", "f", "fo", "foo" and "foobar", fixing the alphabet and the bit order |
| ImageUtils.ValidateFileSize | backend/app/image_utils.py:33-44 | passes exactly for 1 to ceiling bytes; oversize is reported before emptiness |
| ImageUtils.ValidateFileType | backend/app/image_utils.py:12-30 | passes exactly when the sniffer answers with an allowed type, which is returned; a sniffer failure is rejected as an unknown type of that file, and a sniffed type outside the list as not allowed, naming the type |
| ImageUtils.ValidateImageContent | backend/app/image_utils.py:47-54 | passes exactly when the bytes decode as an image; otherwise the file is rejected as corrupted |
| ImageUtils.ProcessUploadFile | backend/app/image_utils.py:57-74 | succeeds exactly when every check passes, returning the bytes and an allowed sniffed type |
| ImageUtils.EncodeImageToBase64 | backend/app/image_utils.py:77-79 | the text decodes back to the image bytes and has the base64 length |
| ImageUtils.ValidateAndEncodeImage | backend/app/image_utils.py:82-86 | succeeds exactly for acceptable uploads, with the encoding and sniffed type; once the name and size pass, a sniffer failure is reported as an unknown type, a disallowed type as not allowed, and an undecodable image as corrupted, each naming the file |
| ImageUtils.RejectionError | backend/app/image_utils.py:21-54 | every rejection raises an image validation error of status 400 |
| ImageUtils.DetailNamesCause | backend/app/image_utils.py:21-60 | the size, emptiness, unknown-type and corruption messages name the file; the not-allowed message names the sniffed type and lists the allowed types instead; a missing file gives "No file provided" |
| ImageUtils.MissingFilenameFirst | backend/app/image_utils.py:59-60 | a missing or empty file name is rejected before anything else is looked at |
| ImageUtils.OversizedRejected | backend/app/image_utils.py:36-41 | more bytes than the ceiling is rejected for size whatever the libraries say |
| ImageUtils.ExactMaximumAccepted | backend/app/image_utils.py:36 | an upload of exactly the ceiling passes the size check |
| ImageUtils.EmptyRejected | backend/app/image_utils.py:43-44 | zero bytes is rejected as empty |
| ImageUtils.ChecksInOrder | backend/app/image_utils.py:65-72 | a type rejection implies the size passed; a corruption rejection implies size and type passed |
| ImageUtils.AcceptedRoundTrip | backend/app/image_utils.py:82-86 | an accepted upload's text decodes to the uploaded bytes and its type is allowed |
| ModelUtils.ParseLinesAppend | backend/app/model_utils.py:16-24 | the file is filtered line by line: the entries of two stretches of lines are the entries of each, in order, so with ParseLinesOne every entry line is kept once per occurrence |
| ModelUtils.ParseLinesOne | backend/app/model_utils.py:19-22 | a single line contributes its stripped form exactly when that is neither blank nor a comment |
| ModelUtils.ParseLinesStripped | backend/app/model_utils.py:19-22 | every entry is already stripped |
| ModelUtils.ReadModelsFromFile | backend/app/model_utils.py:8-24 | without a file the fixed three-model list; with one, exactly the file's entries in file order, as the ParseLines lemmas pin them down |
| ModelUtils.GetDefaultModel | backend/app/model_utils.py:27-30 | the first supported model, or the fallback name when the list is empty |
| ModelUtils.ParseLinesMembership | backend/app/model_utils.py:18-22 | a name is listed exactly when some line strips to it and it is neither blank nor a comment |
| ModelUtils.ParseLinesSound | backend/app/model_utils.py:18-22 | every entry is the stripped form of some line |
| ModelUtils.ParseLinesComplete | backend/app/model_utils.py:18-22 | every line whose stripped form is non-blank and not a comment is listed |
| ModelUtils.IsSupportedModelSpec | backend/app/model_utils.py:33-36 | a name is supported exactly when some line of the file strips to it as an entry, or, without a file, when it is one of the three fixed names |
| ModelUtils.ParseLinesOrder | backend/app/model_utils.py:18-22 | the entries keep file order: a subsequence of the stripped lines |
| ModelUtils.DefaultModelSupported | backend/app/model_utils.py:27-36 | the default model is supported whenever the list is non-empty; with an empty file it is not |
| ModelUtils.NoFileDefault | backend/app/model_utils.py:12-14 | without a file the default is moondream:1.8b and llava:latest is supported |
| Cleaning.OpeningMatch | backend/app/ollama_client.py:105 | the opening-fence pattern matches exactly where the text starts with three backticks |
| Cleaning.CleanExtractedText | backend/app/ollama_client.py:96-120 | empty input gives empty output, and the output never begins or ends with whitespace |
| Cleaning.CleanOnlyDeletes | backend/app/ollama_client.py:96-120 | the cleaned text is a subsequence of the raw text, so the cleaner never inserts or reorders |
| Cleaning.CleanPlainText | backend/app/ollama_client.py:102-120 | text with no backtick and no lead-in cleans to its strip |
| Cleaning.OpeningFencesByLine | backend/app/ollama_client.py:105 | the opening-fence substitution works line by line: whole lines are cleaned independently of the text after them |
| Cleaning.OpeningFenceLineRemoved | backend/app/ollama_client.py:105 | a line of three backticks and a language tag is deleted with its newline |
| Cleaning.ClosingFencesSplit | backend/app/ollama_client.py:106 | the closing-fence substitution distributes over any split point followed by a newline or the end |
| Cleaning.ClosingFenceLineRemoved | backend/app/ollama_client.py:106 | three backticks ending a line are deleted together with the newline before them |
| Cleaning.NoPrefixUnchanged | backend/app/ollama_client.py:116-118 | text starting with none of the lead-ins is left alone |
| Cleaning.LeadInTriedOnce | backend/app/ollama_client.py:116-118 | a lead-in is cut once and the rest stripped; a repeated lead-in stays |
| Cleaning.LeadInIgnoresCase | backend/app/ollama_client.py:117 | a lead-in matches whatever the ASCII letter case of the text |
| Cleaning.LeadInsNotRevisited | backend/app/ollama_client.py:116-118 | lead-ins are tried in order and an earlier one is not retried after a later one is cut |
| Cleaning.CleanFencedBlock | backend/app/ollama_client.py:96-120 | a fenced block with a language tag around plain text cleans to the stripped text |
| OllamaClient.MakeRequest | backend/app/ollama_client.py:29-61 | 404 mentioning "model" is a model error, other 404 the fallback signal; timeouts, refusals and other non-2xx statuses raise the corresponding engine errors; success exactly for a 2xx JSON body; other transport failures and a 2xx body that is not JSON escape as unexpected exceptions |
| OllamaClient.RequestFailureKinds | backend/app/ollama_client.py:51-61 | every failure of an exchange is a connection, timeout or model error with status 503 or 504, or an unexpected exception |
| OllamaClient.Field | backend/app/ollama_client.py:126-131 | a lookup succeeds exactly on an object, giving the stored value or the default |
| OllamaClient.CleanValue | backend/app/ollama_client.py:96-99 | falsy values give the empty text, strings are cleaned, and other truthy values cannot be cleaned |
| OllamaClient.Counter | backend/app/ollama_client.py:141-143 | a missing counter is 0; a present one must be an integer and is taken as it is |
| OllamaClient.ParseUsage | backend/app/ollama_client.py:137-144 | falsy usage data gives no record; truthy data fails exactly when it is not an object or a counter in it is not an integer; otherwise each counter is read from the object |
| OllamaClient.ParseResponse | backend/app/ollama_client.py:122-150 | a parsed reply names the client's model; a malformed reply raises an unexpected exception, never an engine error |
| OllamaClient.MalformedReplyRejected | backend/app/ollama_client.py:122-150 | a reply that is not an object, a chat message that is not an object, text that is truthy but not a string, or unreadable usage data raises |
| OllamaClient.ExtractTextFromImage | backend/app/ollama_client.py:152-175 | the chat endpoint is always asked first; the generate endpoint is asked once, exactly when chat does not exist; results name the client's model |
| OllamaClient.ChatSuccessNoFallback | backend/app/ollama_client.py:157-160 | a successful chat reply is parsed and the generate endpoint is not asked |
| OllamaClient.ChatErrorsPropagate | backend/app/ollama_client.py:174-175 | a chat failure other than the missing endpoint propagates unchanged after one request |
| OllamaClient.Fallback | backend/app/ollama_client.py:163-173 | a failure after the fallback is always an engine error, never an unexpected exception |
| OllamaClient.FallbackSpec | backend/app/ollama_client.py:165-173 | the generate attempt succeeds exactly when it is answered and the answer parses; every other outcome is the fixed connection error |
| OllamaClient.FallbackOutcome | backend/app/ollama_client.py:163-173 | after the fallback, success is exactly a parsed generate reply, and anything else is the fixed connection error |
| OllamaClient.FallbackMasksErrors | backend/app/ollama_client.py:168-173 | even a model error or timeout on the generate endpoint becomes the connection error with code 503 |
| OllamaClient.ChatReplyParsed | backend/app/ollama_client.py:124-150 | a chat reply whose message carries string content yields that content cleaned, the client's model and the usage read from its `usage` field, and is rejected exactly when that usage cannot be read |
| OllamaClient.GenerateReplyParsed | backend/app/ollama_client.py:129-150 | a generate reply whose `response` is a string yields it cleaned, the client's model and the usage read from its `usage` field, and is rejected exactly when that usage cannot be read |
| OllamaClient.RawText | backend/app/ollama_client.py:124-131 | an object reply yields `message.content` for chat and `response` for generate, each defaulting to "", and fails exactly when the reply or the chat message is not an object |
| OllamaClient.AbsentTextIsEmpty | backend/app/ollama_client.py:96-150 | a reply whose text field is missing or falsy (null, "", false, 0, empty) gives the empty text, including a chat message without `content` and a missing message; the usage is read from its `usage` field |
| OllamaClient.UsageCounters | backend/app/ollama_client.py:139-144 | usage data whose three counters are integers when present yields them, each 0 when missing, whatever other keys it has; an empty object counts as no usage |
| Api.Start | backend/app/ollama_client.py:13-15 | at start-up the client's model is the configured model |
| Api.Raised | backend/app/main.py:209-224 | a raised HTTP exception is answered with its own status and the standard body for it, whose code is that same status |
| Api.Healthz | backend/app/main.py:48-58 | "healthy" exactly when the probe succeeds, "degraded" otherwise, reporting the configured host and model |
| Api.HealthCheckNecessary | backend/app/ollama_client.py:177-184 | a probe that fails the health check would also fail the model listing and the model switch; a 200 with an unreadable body is healthy yet lists nothing |
| Api.NamesOf | backend/app/main.py:116 | names are read exactly when every item is an object with a name, one per item in order |
| Api.ListedNames | backend/app/main.py:115-116 | a listing without models has no names; a list of models gives their names |
| Api.AllStrings | backend/app/main.py:118 | the names are usable exactly when every one is a string, and they are kept in order |
| Api.VisionModels | backend/app/main.py:118 | a name is kept exactly when it contains a vision keyword in its lowercase form |
| Api.VisionModelsAppend | backend/app/main.py:118 | the filter distributes over concatenation of the names, so with VisionModelsOne every vision model is kept once per occurrence |
| Api.VisionModelsOne | backend/app/main.py:118 | a single name is kept exactly when it is a vision model |
| Api.VisionModelsInOrder | backend/app/main.py:118 | the vision models appear in listing order, a subsequence of the names |
| Api.VisionKeywordAnyCase | backend/app/main.py:118 | a name containing a keyword in any letter case is a vision model |
| Api.AvailableModels | backend/app/main.py:106-130 | a listing is returned exactly when the engine answers 200 with string names; every failure is a 503 "Cannot connect to Ollama" |
| Api.SetModel | backend/app/main.py:133-170 | a missing name is refused before asking the engine; a switch happens only to a listed name and updates both copies of the model; errors change nothing |
| Api.SetModelNameRequired | backend/app/main.py:136-138 | an absent or empty name gets 400 "Model name required" and the engine is not asked |
| Api.SetModelUnknownName | backend/app/main.py:150-151 | an unlisted name gets 400 naming it, and the state is unchanged |
| Api.SetModelListedName | backend/app/main.py:153-162 | a listed name becomes the model of settings and client, and nothing else in the settings changes |
| Api.SetModelUnreachable | backend/app/main.py:163-170 | an unreachable engine gives 500 "Internal server error", while every non-200 answer, whatever its body, gives 503 |
| Api.SwitchThenExtract | backend/app/main.py:154-155 | after a successful switch, extracted text reports the new model |
| Api.Length | backend/app/main.py:185 | a value has a length exactly when it is a list, string or object, and it is the number of items, characters or keys |
| Api.OllamaStatus | backend/app/main.py:173-206 | connected exactly when the probe succeeds and the listing is counted, reporting the length of `models` as the total; disconnected exactly when the probe fails or the listing answers other than 200; errored otherwise; always reports the host |
| Api.StatusCountsModels | backend/app/main.py:184-192 | a listing's `models` list is counted item by item, and a listing without one counts no models |
| Api.HealthAndStatusAgree | backend/app/main.py:48-58 | on the same probe, a connected status implies a healthy report with the same model, a failed probe makes the status disconnected, and both name the same host |
| Api.InferenceAnswer | backend/app/main.py:89-103 | a result is returned as is; engine errors keep their status; every other failure is 500, always with the standard body |
| Api.ExtractText | backend/app/main.py:61-103 | the engine is asked exactly when the upload is acceptable, always with the upload's encoding; error statuses agree with the body code |
| Api.Infer | backend/app/main.py:78-103 | every request carries the image, success names the client's model, and error statuses agree with the body code |
| Api.ValidationBeforeInference | backend/app/main.py:75-87 | a rejected upload gets 400 with the rejection's detail and the engine is never asked |
| Api.InferenceErrorsMapped | backend/tests/test_extract_text.py:100-123 | engine errors are answered with their own status and class name; unexpected ones with a 500 that hides their text |
| Api.MissingModelReported | backend/app/main.py:89-95 | a model-not-found reply on the chat endpoint reaches the caller as a 503 naming the model, after one request |

## Left out

- Transport, routing, CORS middleware, the server runner and logging: requests and replies enter as data.
- The root endpoint: it only echoes the service name, the version and two settings, the current model and the upload ceiling.
- The prompts and request payloads of the two inference calls: they are fixed data. Each call is reduced to its endpoint and image.
- URL construction with `urljoin` for the client and string concatenation for the endpoints: hosts are opaque strings.
- The request timeout in seconds: it is a float; timeouts enter as a `Reply` outcome.
- libmagic, Pillow and the float rendering of a size in megabytes: they are oracles.
- Reading the upload body and the model file: the bytes and lines are inputs, and read failures are not modelled.
- Concurrency between requests: every handler is a pure function of the state.
- JSON floating-point numbers: a decoded value is null, a boolean, an integer, a string, a list or an object.
- OllamaClient.Counter: pydantic's lax coercions are not modelled. Numeric strings, whole floats and booleans are coerced by the service; here they are errors.
- Text.Lower: lowers ASCII letters only. The only other characters whose Python lowercase contains an ASCII letter are U+212A (to 'k') and U+0130 (to 'i' and a combining dot). Neither can complete a match of a lead-in or the word "model". U+212A can complete "bakllava", but every such name also contains "llava", which is itself a keyword, so the vision filter keeps the same names.
- Cleaning.WordRun: `\w` is read as ASCII letters, digits and underscore. Unicode letters in a language tag are not consumed.
- Api.SetModel: the request's `model` field is an optional string. A non-string JSON value for it is not modelled.
- Api.OllamaStatus: the text of a caught exception in the error report is not modelled.
- Api.InferenceAnswer: status equals body code only for non-HTTP exceptions. Inference never raises an HTTP exception, so this is all `ExtractText` needs.
- Requests to the engine wait at most 60000 ms, and there is no model-pull endpoint. When both inference endpoints fail, the client raises the fixed "Both endpoints failed" connection error.

=== FILE: api.dfy ===
/**
 The decision rules of the HTTP endpoints: health labelling, the model
 listing with its vision filter, the guarded switch of the active model,
 the engine status report, and the order of validation, inference and error
 mapping when text is extracted from an upload.

 Routing, CORS, logging and the HTTP clients are not modelled; each GET of
 the engine's listing enters as a `TagsReply` and each inference exchange
 as a `Reply`.
 */
module Api {
  import opened Common
  import opened Text
  import opened Json
  import opened Schemas
  import opened Config
  import opened Errors
  import opened ImageUtils
  import opened OllamaClient
  import Base64

  /** The mutable state of the service: the settings and the model the
      inference client uses. */
  datatype Server = Server(settings: Settings, clientModel: string)

  /** The two copies of the active model agree. */
  predicate Consistent(srv: Server) {
    srv.settings.ollamaModel == srv.clientModel
  }

  /** The service at start-up: the client takes its model from the settings. */
  function Start(s: Settings): (srv: Server)
    ensures Consistent(srv) && srv.settings == s
  {
    Server(s, s.ollamaModel)
  }

  /** An endpoint's answer: a body, or an error status with the standard error body. */
  datatype Response<+T> = Ok(value: T) | Error(status: int, body: ErrorResponse)

  /** The answer the service gives for a raised HTTP exception (the handlers
      of HTTP and image validation errors) or a caught engine error: the
      exception's own status, with the standard error body carrying the same
      code. Unexpected exceptions never take this path: the extraction
      endpoint answers them itself, with 500 (`InferenceAnswer`). */
  function Raised<T>(e: Exception): (r: Response<T>)
    requires e.OllamaError? || e.HttpException?
    ensures r.Error? && r.status == e.statusCode && r.body == CreateErrorResponse(e)
    ensures r.Error? && r.body.code == r.status
  {
    Error(e.statusCode, CreateErrorResponse(e))
  }

  // ---------------------------------------------------------------------------
  // GET /healthz

  datatype HealthReport = HealthReport(status: string, ollamaConnected: bool, ollamaHost: string, ollamaModel: string)

  function Healthz(srv: Server, probe: TagsReply): (r: HealthReport)
    ensures r.status == "healthy" <==> HealthCheck(probe)
    ensures r.status == "healthy" || r.status == "degraded"
    ensures r.ollamaConnected == HealthCheck(probe)
    ensures r.ollamaHost == srv.settings.ollamaHost && r.ollamaModel == srv.settings.ollamaModel
  {
    var up := HealthCheck(probe);
    HealthReport(if up then "healthy" else "degraded", up, srv.settings.ollamaHost, srv.settings.ollamaModel)
  }

  // ---------------------------------------------------------------------------
  // Reading the engine's model listing.

  /** `[model['name'] for model in items]`: every item must be an object with a name. */
  function NamesOf(items: seq<Value>): (r: Option<seq<Value>>)
    ensures r.Some? <==> forall i :: 0 <= i < |items| ==> items[i].JObj? && "name" in items[i].fields
    ensures r.Some? ==> |r.value| == |items|
    ensures r.Some? ==> forall i :: 0 <= i < |items| ==> r.value[i] == items[i].fields["name"]
  {
    if items == [] then Some([])
    else if !items[0].JObj? || "name" !in items[0].fields then None
    else match NamesOf(items[1..])
      case None => None
      case Some(rest) => Some([items[0].fields["name"]] + rest)
  }

  /** The names in a decoded listing, `None` when reading them raises. The
      listing must be an object; its `models` entry defaults to an empty list,
      and iterating an empty string or empty object also yields nothing. */
  function ListedNames(data: Value): (r: Option<seq<Value>>)
    ensures r.Some? ==> data.JObj?
    ensures data.JObj? && "models" !in data.fields ==> r == Some([])
    ensures (data.JObj? && "models" in data.fields && data.fields["models"].JArr?)
              ==> r == NamesOf(data.fields["models"].items)
  {
    if !data.JObj? then None
    else
      match Get(data.fields, "models", JArr([]))
      case JArr(items) => NamesOf(items)
      case JStr(s) => if s == [] then Some([]) else None
      case JObj(f) => if f == map[] then Some([]) else None
      case _ => None
  }

  /** The names as strings, `None` when one of them is not a string. */
  function AllStrings(names: seq<Value>): (r: Option<seq<string>>)
    ensures r.Some? <==> forall i :: 0 <= i < |names| ==> names[i].JStr?
    ensures r.Some? ==> |r.value| == |names| && forall i :: 0 <= i < |names| ==> names[i] == JStr(r.value[i])
  {
    if names == [] then Some([])
    else if !names[0].JStr? then None
    else match AllStrings(names[1..])
      case None => None
      case Some(rest) => Some([names[0].s] + rest)
  }

  // ---------------------------------------------------------------------------
  // GET /api/models

  const VisionKeywords: seq<string> := ["llava", "moondream", "vision", "bakllava", "qwen2-vl", "minicpm-v"]

  /** A model is taken to accept images when its lowercase name contains one of the keywords. */
  predicate IsVisionModel(name: string) {
    exists k :: 0 <= k < |VisionKeywords| && Contains(Lower(name), VisionKeywords[k])
  }

  /** The vision models among `names`, in their order. */
  function VisionModels(names: seq<string>): (r: seq<string>)
    ensures forall m :: m in r <==> m in names && IsVisionModel(m)
    ensures |r| <= |names|
  {
    if names == [] then []
    else (if IsVisionModel(names[0]) then [names[0]] else []) + VisionModels(names[1..])
  }

  datatype ModelsListing = ModelsListing(availableModels: seq<string>, currentModel: string, allModels: seq<string>)

  const CannotConnect := HttpException(503, "Cannot connect to Ollama", false)

  /** The listing's names when the engine answered 200 with a readable listing
      of string names. */
  function ListingNames(reply: TagsReply): Option<seq<Value>> {
    if reply.TagsAnswer? && reply.status == 200 && reply.body.Some? then ListedNames(reply.body.value)
    else None
  }

  /** `get_available_models`: every failure, whatever its cause, is a 503. */
  function AvailableModels(srv: Server, reply: TagsReply): (r: Response<ModelsListing>)
    ensures r.Ok? <==> ListingNames(reply).Some? && AllStrings(ListingNames(reply).value).Some?
    ensures r.Ok? ==> var all := AllStrings(ListingNames(reply).value).value;
      r.value == ModelsListing(VisionModels(all), srv.settings.ollamaModel, all)
    ensures r.Error? ==> r == Raised(CannotConnect)
  {
    match ListingNames(reply)
    case None => Raised(CannotConnect)
    case Some(names) =>
      match AllStrings(names)
      case None => Raised(CannotConnect)
      case Some(all) => Ok(ModelsListing(VisionModels(all), srv.settings.ollamaModel, all))
  }

  // ---------------------------------------------------------------------------
  // POST /api/set-model

  datatype Switched = Switched(message: string, currentModel: string)

  const NameRequired := HttpException(400, "Model name required", false)
  const InternalServerError := HttpException(500, "Internal server error", false)

  function NotFound(name: string): Exception {
    HttpException(400, "Model '" + name + "' not found in Ollama", false)
  }

  /** The listing check of a set-model request: the name when the engine lists
      it, otherwise the HTTP exception raised. A failed exchange or an
      unreadable listing surfaces as the generic 500. */
  function CheckListed(name: string, reply: TagsReply): (r: Result<string, Exception>)
    ensures r.Failure? ==> r.error.HttpException?
  {
    match reply
    case TagsUnreachable => Failure(InternalServerError)
    case TagsAnswer(status, body) =>
      if status != 200 then Failure(CannotConnect)
      else if body.None? then Failure(InternalServerError)
      else
        match ListedNames(body.value)
        case None => Failure(InternalServerError)
        case Some(names) => if JStr(name) in names then Success(name) else Failure(NotFound(name))
  }

  /** `set_model`: the answer, the new state and whether the engine was asked.
      `requested` is the body's `model` field when it is a string. */
  function SetModel(srv: Server, requested: Option<string>, reply: TagsReply): (res: (Response<Switched>, Server, bool))
    ensures var (r, srv', asked) := res;
      && (r.Error? ==> srv' == srv)
      && (Consistent(srv) ==> Consistent(srv'))
      && (!asked <==> requested.None? || requested.value == [])
      && (!asked ==> r == Raised(NameRequired))
    ensures var (r, srv', asked) := res;
      r.Ok? ==> && requested.Some?
                && reply.TagsAnswer? && reply.status == 200 && reply.body.Some?
                && ListedNames(reply.body.value).Some?
                && JStr(requested.value) in ListedNames(reply.body.value).value
                && srv' == Server(srv.settings.(ollamaModel := requested.value), requested.value)
                && r.value == Switched("Successfully switched to model: " + requested.value, requested.value)
  {
    if requested.None? || requested.value == [] then (Raised(NameRequired), srv, false)
    else
      var name := requested.value;
      match CheckListed(name, reply)
      case Failure(e) => (Raised(e), srv, true)
      case Success(_) =>
        (Ok(Switched("Successfully switched to model: " + name, name)),
         Server(srv.settings.(ollamaModel := name), name), true)
  }

  // ---------------------------------------------------------------------------
  // GET /api/ollama-status

  datatype StatusReport =
    | Connected(host: string, currentModel: string, totalModels: nat)
    | Disconnected(host: string)
      /** An exception was raised; its text is not modelled. */
    | Errored(host: string)

  /** Python's `len` of a value, `None` when it has no length. */
  function Length(v: Value): (n: Option<nat>)
    ensures n.Some? <==> v.JArr? || v.JStr? || v.JObj?
    ensures v.JArr? ==> n == Some(|v.items|)
    ensures v.JStr? ==> n == Some(|v.s|)
    ensures v.JObj? ==> n == Some(|v.fields.Keys|)
  {
    match v
    case JArr(items) => Some(|items|)
    case JStr(s) => Some(|s|)
    case JObj(fields) => Some(|fields|)
    case _ => None
  }

  /** `get_ollama_status`: the health probe first; only when it succeeds is the
      listing fetched and counted. */
  function OllamaStatus(srv: Server, probe: TagsReply, listing: TagsReply): (r: StatusReport)
    ensures r.host == srv.settings.ollamaHost
    ensures r.Connected? <==> HealthCheck(probe) && listing.TagsAnswer? && listing.status == 200
                              && listing.body.Some? && listing.body.value.JObj?
                              && Length(Get(listing.body.value.fields, "models", JArr([]))).Some?
    ensures r.Connected? ==> r.currentModel == srv.settings.ollamaModel
    ensures r.Connected? ==> r.totalModels == Length(Get(listing.body.value.fields, "models", JArr([]))).value
    ensures r.Disconnected? <==> !HealthCheck(probe) || (listing.TagsAnswer? && listing.status != 200)
  {
    var host := srv.settings.ollamaHost;
    if !HealthCheck(probe) then Disconnected(host)
    else
      match listing
      case TagsUnreachable => Errored(host)
      case TagsAnswer(status, body) =>
        if status != 200 then Disconnected(host)
        else if body.None? || !body.value.JObj? then Errored(host)
        else
          match Length(Get(body.value.fields, "models", JArr([])))
          case None => Errored(host)
          case Some(n) => Connected(host, srv.settings.ollamaModel, n)
  }

  /** A listing whose `models` entry is a list is counted item by item, and
      a listing without one counts no models. */
  lemma StatusCountsModels(srv: Server, probe: TagsReply, fields: map<string, Value>)
    requires HealthCheck(probe)
    ensures "models" in fields && fields["models"].JArr? ==>
      OllamaStatus(srv, probe, TagsAnswer(200, Some(JObj(fields))))
        == Connected(srv.settings.ollamaHost, srv.settings.ollamaModel, |fields["models"].items|)
    ensures "models" !in fields ==>
      OllamaStatus(srv, probe, TagsAnswer(200, Some(JObj(fields))))
        == Connected(srv.settings.ollamaHost, srv.settings.ollamaModel, 0)
  {
  }

  /** The health endpoint and the status endpoint agree on the same probe:
      a connected status implies a healthy report, a failed probe makes the
      status disconnected, and both name the same host and model. */
  lemma HealthAndStatusAgree(srv: Server, probe: TagsReply, listing: TagsReply)
    ensures OllamaStatus(srv, probe, listing).Connected? ==>
      && Healthz(srv, probe).ollamaConnected && Healthz(srv, probe).status == "healthy"
      && OllamaStatus(srv, probe, listing).currentModel == Healthz(srv, probe).ollamaModel
    ensures !Healthz(srv, probe).ollamaConnected ==> OllamaStatus(srv, probe, listing).Disconnected?
    ensures OllamaStatus(srv, probe, listing).host == Healthz(srv, probe).ollamaHost
  {
  }

  /** A probe that fails the health check would also fail to list models or
      switch the model; the converse does not hold, as the health check does
      not read the listing's body. */
  lemma HealthCheckNecessary(srv: Server, reply: TagsReply, name: string)
    requires name != []
    ensures !HealthCheck(reply) ==> AvailableModels(srv, reply).Error? && SetModel(srv, Some(name), reply).0.Error?
    ensures HealthCheck(TagsAnswer(200, None)) && AvailableModels(srv, TagsAnswer(200, None)).Error?
  {
  }

  // ---------------------------------------------------------------------------
  // POST /api/extract-text

  /** The answer to an inference outcome: the result itself, an engine error
      with its own status, or 500 for anything else. */
  function InferenceAnswer(result: Result<ExtractTextResponse, Exception>): (r: Response<ExtractTextResponse>)
    ensures result.Success? ==> r == Ok(result.value)
    ensures r.Error? ==> r.body == CreateErrorResponse(result.error)
    ensures r.Error? && !result.error.HttpException? ==> r.status == r.body.code
    ensures r.Error? && !result.error.OllamaError? ==> r.status == 500
  {
    match result
    case Success(v) => Ok(v)
    case Failure(e) => if e.OllamaError? then Raised(e) else Error(500, CreateErrorResponse(e))
  }

  /** `extract_text`: validate and encode the upload, then ask the engine.
      A rejection is answered by the validation handler; an engine error with
      its own status; any other exception with 500. Also returns the requests
      sent to the engine. */
  function ExtractText(srv: Server, u: Upload, o: Oracles, chat: Reply, generate: Reply)
    : (res: (Response<ExtractTextResponse>, seq<Call>))
    ensures var (r, calls) := res;
      && (calls == [] <==> !Acceptable(u, srv.settings, o))
      && (forall k :: 0 <= k < |calls| ==> calls[k].image == Base64.Encode(u.content))
      && (r.Ok? ==> r.value.model == srv.clientModel)
      && (r.Error? ==> r.status == r.body.code)
  {
    var validated := ValidateAndEncodeImage(u, srv.settings, o);
    if validated.Failure? then (Raised(RejectionError(validated.error, srv.settings, o)), [])
    else Infer(validated.value.0, srv.clientModel, chat, generate)
  }

  /** The inference step of `extract_text` with its error mapping. */
  function Infer(image: string, model: string, chat: Reply, generate: Reply)
    : (res: (Response<ExtractTextResponse>, seq<Call>))
    ensures |res.1| >= 1 && forall k :: 0 <= k < |res.1| ==> res.1[k].image == image
    ensures res.0.Ok? ==> res.0.value.model == model
    ensures res.0.Error? ==> res.0.status == res.0.body.code
  {
    var inference := ExtractTextFromImage(image, model, chat, generate);
    SameImage(inference.1, image);
    (InferenceAnswer(inference.0), inference.1)
  }

  /** One or two requests that both carry `image`. */
  lemma SameImage(calls: seq<Call>, image: string)
    requires 1 <= |calls| <= 2 && calls[0].image == image
    requires |calls| == 2 ==> calls[1].image == image
    ensures forall k :: 0 <= k < |calls| ==> calls[k].image == image
  {
  }

  // ---------------------------------------------------------------------------
  // Properties.

  /** The vision filter keeps the listing's order: its result is a
      subsequence of the names. */
  lemma {:induction false} VisionModelsInOrder(names: seq<string>)
    ensures Subseq(VisionModels(names), names)
  {
    if names != [] {
      VisionModelsInOrder(names[1..]);
      if IsVisionModel(names[0]) {
        SubseqCons(names[0], VisionModels(names[1..]), names[1..]);
      } else {
        assert VisionModels(names) == VisionModels(names[1..]);
        SubseqOfSuffix(VisionModels(names), names, 1);
      }
      assert [names[0]] + names[1..] == names;
    }
  }

  /** The filter keeps every vision model, once per occurrence: the result
      for two stretches of names is the results for each, in order, and a
      single name is kept exactly when it is a vision model. */
  lemma VisionModelsAppend(a: seq<string>, b: seq<string>)
    ensures VisionModels(a + b) == VisionModels(a) + VisionModels(b)
  {
    forall x, rest ensures VisionModels([x] + rest) == VisionOf(x) + VisionModels(rest) {
      assert ([x] + rest)[1..] == rest;
    }
    ConcatMapAppend(VisionModels, VisionOf, a, b);
  }

  /** A single name is kept exactly when it is a vision model. */
  lemma VisionModelsOne(name: string)
    ensures VisionModels([name]) == (if IsVisionModel(name) then [name] else [])
  {
    assert [name][1..] == [];
  }

  /** What one name contributes to the vision list. */
  function VisionOf(name: string): seq<string> {
    if IsVisionModel(name) then [name] else []
  }

  /** A name with a keyword in any letter case is a vision model. */
  lemma VisionKeywordAnyCase(prefix: string, w: string, k: nat, suffix: string)
    requires k < |VisionKeywords| && Lower(w) == VisionKeywords[k]
    ensures IsVisionModel(prefix + w + suffix)
  {
    LowerSlice(prefix, w, suffix);
    ContainsAt(Lower(prefix + w + suffix), VisionKeywords[k], |prefix|);
  }

  /** A set-model request without a name is answered 400 before the engine is consulted. */
  lemma SetModelNameRequired(srv: Server, reply: TagsReply)
    ensures SetModel(srv, None, reply) == (Error(400, ErrorResponse("ValidationError", "Model name required", 400)), srv, false)
    ensures SetModel(srv, Some([]), reply) == SetModel(srv, None, reply)
  {
  }

  /** A name the engine does not list is answered 400 and changes nothing. */
  lemma SetModelUnknownName(srv: Server, name: string, data: Value)
    requires name != []
    requires ListedNames(data).Some? && JStr(name) !in ListedNames(data).value
    ensures SetModel(srv, Some(name), TagsAnswer(200, Some(data)))
         == (Error(400, ErrorResponse("ValidationError", "Model '" + name + "' not found in Ollama", 400)), srv, true)
  {
  }

  /** A listed name becomes the model of both the settings and the client,
      and nothing else in the settings changes. */
  lemma SetModelListedName(srv: Server, name: string, data: Value)
    requires name != []
    requires ListedNames(data).Some? && JStr(name) in ListedNames(data).value
    ensures var (r, srv', _) := SetModel(srv, Some(name), TagsAnswer(200, Some(data)));
      && r == Ok(Switched("Successfully switched to model: " + name, name))
      && srv'.settings.ollamaModel == name && srv'.clientModel == name
      && srv'.settings.(ollamaModel := srv.settings.ollamaModel) == srv.settings
  {
  }

  /** An engine that cannot be reached turns a set-model request into the
      generic 500, not the 503 the other failures give. */
  lemma SetModelUnreachable(srv: Server, name: string, status: nat, body: Option<Value>)
    requires name != []
    ensures SetModel(srv, Some(name), TagsUnreachable).0 == Error(500, ErrorResponse("ValidationError", "Internal server error", 500))
    ensures status != 200 ==>
      SetModel(srv, Some(name), TagsAnswer(status, body)).0 == Error(503, ErrorResponse("ValidationError", "Cannot connect to Ollama", 503))
  {
  }

  /** After a successful switch, extracted text reports the new model. */
  lemma SwitchThenExtract(srv: Server, name: string, reply: TagsReply, u: Upload, o: Oracles, chat: Reply, generate: Reply)
    requires SetModel(srv, Some(name), reply).0.Ok?
    ensures var srv' := SetModel(srv, Some(name), reply).1;
      var r := ExtractText(srv', u, o, chat, generate).0;
      r.Ok? ==> r.value.model == name
  {
  }

  /** A failed validation answers 400 and the engine is never called. */
  lemma ValidationBeforeInference(srv: Server, u: Upload, o: Oracles, chat: Reply, generate: Reply)
    requires !Acceptable(u, srv.settings, o)
    ensures ExtractText(srv, u, o, chat, generate).1 == []
    ensures ExtractText(srv, u, o, chat, generate).0
         == Error(400, ErrorResponse("ValidationError",
              Detail(ValidateAndEncodeImage(u, srv.settings, o).error, srv.settings, o), 400))
  {
  }

  /** An engine error is answered with its own status and the engine body;
      any other failure of inference is answered 500 without its text. */
  lemma InferenceErrorsMapped(srv: Server, u: Upload, o: Oracles, chat: Reply, generate: Reply)
    requires Acceptable(u, srv.settings, o)
    ensures var image := Base64.Encode(u.content);
      var inner := ExtractTextFromImage(image, srv.clientModel, chat, generate).0;
      var r := ExtractText(srv, u, o, chat, generate).0;
      && (inner.Success? ==> r == Ok(inner.value))
      && (inner.Failure? && inner.error.OllamaError? ==>
            r == Error(inner.error.statusCode, ErrorResponse(ClassName(inner.error.kind), inner.error.message, inner.error.statusCode)))
      && (inner.Failure? && inner.error.OtherException? ==>
            r == Error(500, ErrorResponse("InternalServerError", InternalMessage, 500)))
  {
  }

  /** A model-not-found reply from the chat endpoint reaches the caller as a
      503 naming the model, after one request. */
  lemma MissingModelReported(srv: Server, u: Upload, o: Oracles, text: string, body: Option<Value>, generate: Reply)
    requires Acceptable(u, srv.settings, o)
    requires Contains(Lower(text), "model")
    ensures var (r, calls) := ExtractText(srv, u, o, Answer(404, text, body), generate);
      && |calls| == 1
      && r == Error(503, ErrorResponse("OllamaModelError",
           "Model '" + srv.clientModel + "' not found. Try running: ollama pull " + srv.clientModel, 503))
  {
    var image := Base64.Encode(u.content);
    assert ValidateAndEncodeImage(u, srv.settings, o).value.0 == image;
    MissingModelInference(image, srv.clientModel, text, body, generate);
  }

  /** The inference half of the model-not-found case. */
  lemma MissingModelInference(image: string, model: string, text: string, body: Option<Value>, generate: Reply)
    requires Contains(Lower(text), "model")
    ensures Infer(image, model, Answer(404, text, body), generate)
         == (Error(503, ErrorResponse("OllamaModelError",
              "Model '" + model + "' not found. Try running: ollama pull " + model, 503)), [Call(Chat, image)])
  {
    var e := ModelError(model);
    assert MakeRequest(Answer(404, text, body), model) == Failed(e);
    assert ExtractTextFromImage(image, model, Answer(404, text, body), generate) == (Failure(e), [Call(Chat, image)]);
  }
}

=== FILE: base64.dfy ===
/**
 Standard base64 (section 4 of RFC 4648): the encoding applied to a validated
 upload before it is sent to the engine, and a strict decoder that accepts
 exactly the canonical encodings.
 */
module Base64 {
  import opened Common

  /** The standard alphabet: A-Z, a-z, 0-9, '+' and '/'. */
  predicate IsAlphabet(c: char) {
    ('A' <= c <= 'Z') || ('a' <= c <= 'z') || ('0' <= c <= '9') || c == '+' || c == '/'
  }

  /** The alphabet character of a 6-bit value. */
  function CharOf(v: int): (c: char)
    requires 0 <= v < 64
    ensures IsAlphabet(c)
  {
    if v < 26 then ('A' as int + v) as char
    else if v < 52 then ('a' as int + (v - 26)) as char
    else if v < 62 then ('0' as int + (v - 52)) as char
    else if v == 62 then '+'
    else '/'
  }

  /** The 6-bit value of an alphabet character; the inverse of `CharOf`. */
  function ValueOf(c: char): (v: int)
    requires IsAlphabet(c)
    ensures 0 <= v < 64
    ensures CharOf(v) == c
  {
    if 'A' <= c <= 'Z' then c as int - 'A' as int
    else if 'a' <= c <= 'z' then c as int - 'a' as int + 26
    else if '0' <= c <= '9' then c as int - '0' as int + 52
    else if c == '+' then 62
    else 63
  }

  lemma ValueOfCharOf(v: int)
    requires 0 <= v < 64
    ensures ValueOf(CharOf(v)) == v
  {
  }

  // ---------------------------------------------------------------------------
  // Regrouping bits: three bytes `a b c` hold four 6-bit values.

  /** The high six bits of `a`. */
  function Sextet0(a: byte): (v: int)
    ensures 0 <= v < 64
  {
    a / 4
  }

  /** The low two bits of `a` and the high four bits of `b`. */
  function Sextet1(a: byte, b: byte): (v: int)
    ensures 0 <= v < 64
  {
    (a % 4) * 16 + b / 16
  }

  /** The low four bits of `b` and the high two bits of `c`. */
  function Sextet2(b: byte, c: byte): (v: int)
    ensures 0 <= v < 64
  {
    (b % 16) * 4 + c / 64
  }

  /** The low six bits of `c`. */
  function Sextet3(c: byte): (v: int)
    ensures 0 <= v < 64
  {
    c % 64
  }

  /** The first byte: all of `v0` and the high two bits of `v1`. */
  function Octet0(v0: int, v1: int): byte
    requires 0 <= v0 < 64 && 0 <= v1 < 64
  {
    v0 * 4 + v1 / 16
  }

  /** The second byte: the low four bits of `v1` and the high four bits of `v2`. */
  function Octet1(v1: int, v2: int): byte
    requires 0 <= v1 < 64 && 0 <= v2 < 64
  {
    (v1 % 16) * 16 + v2 / 4
  }

  /** The third byte: the low two bits of `v2` and all of `v3`. */
  function Octet2(v2: int, v3: int): byte
    requires 0 <= v2 < 64 && 0 <= v3 < 64
  {
    (v2 % 4) * 64 + v3
  }

  lemma DivMod4(q: int, r: int)
    requires 0 <= r < 4
    ensures (q * 4 + r) / 4 == q && (q * 4 + r) % 4 == r
  {
  }

  lemma DivMod16(q: int, r: int)
    requires 0 <= r < 16
    ensures (q * 16 + r) / 16 == q && (q * 16 + r) % 16 == r
  {
  }

  lemma DivMod64(q: int, r: int)
    requires 0 <= r < 64
    ensures (q * 64 + r) / 64 == q && (q * 64 + r) % 64 == r
  {
  }

  /** Regrouping the sextets of three bytes gives back the bytes. */
  lemma OctetsOfSextets(a: byte, b: byte, c: byte)
    ensures Octet0(Sextet0(a), Sextet1(a, b)) == a
    ensures Octet1(Sextet1(a, b), Sextet2(b, c)) == b
    ensures Octet2(Sextet2(b, c), Sextet3(c)) == c
  {
    DivMod16(a % 4, b / 16);
    DivMod4(b % 16, c / 64);
  }

  /** Bits that padding leaves unused are zero. */
  lemma PaddingBitsZero(a: byte, b: byte)
    ensures Sextet1(a, 0) % 16 == 0 && Sextet2(b, 0) % 4 == 0
  {
    DivMod16(a % 4, 0);
    DivMod4(b % 16, 0);
  }

  lemma Sextet0OfOctet(v0: int, v1: int)
    requires 0 <= v0 < 64 && 0 <= v1 < 64
    ensures Sextet0(Octet0(v0, v1)) == v0
  {
    DivMod4(v0, v1 / 16);
  }

  lemma Sextet1OfOctets(v0: int, v1: int, v2: int)
    requires 0 <= v0 < 64 && 0 <= v1 < 64 && 0 <= v2 < 64
    ensures Sextet1(Octet0(v0, v1), Octet1(v1, v2)) == v1
    ensures v1 % 16 == 0 ==> Sextet1(Octet0(v0, v1), 0) == v1
  {
    DivMod4(v0, v1 / 16);
    DivMod16(v1 % 16, v2 / 4);
  }

  lemma Sextet2OfOctets(v1: int, v2: int, v3: int)
    requires 0 <= v1 < 64 && 0 <= v2 < 64 && 0 <= v3 < 64
    ensures Sextet2(Octet1(v1, v2), Octet2(v2, v3)) == v2
    ensures v2 % 4 == 0 ==> Sextet2(Octet1(v1, v2), 0) == v2
  {
    DivMod16(v1 % 16, v2 / 4);
    DivMod64(v2 % 4, v3);
  }

  lemma Sextet3OfOctet(v2: int, v3: int)
    requires 0 <= v2 < 64 && 0 <= v3 < 64
    ensures Sextet3(Octet2(v2, v3)) == v3
  {
    DivMod64(v2 % 4, v3);
  }

  // ---------------------------------------------------------------------------
  // Encoding.

  /** Three bytes as four characters. */
  function EncodeGroup(a: byte, b: byte, c: byte): string {
    [CharOf(Sextet0(a)), CharOf(Sextet1(a, b)), CharOf(Sextet2(b, c)), CharOf(Sextet3(c))]
  }

  /** Number of '=' characters closing the encoding of `n` bytes. */
  function PadCount(n: nat): nat {
    if n % 3 == 0 then 0 else 3 - n % 3
  }

  /** `r` is made of alphabet characters followed by exactly `pad` '=' characters. */
  predicate Padded(r: string, pad: nat) {
    && pad <= |r|
    && (forall k :: 0 <= k < |r| - pad ==> IsAlphabet(r[k]))
    && (forall k :: |r| - pad <= k < |r| ==> r[k] == '=')
  }

  lemma PaddedAppend(g: string, r: string, pad: nat)
    requires Padded(g, 0) && Padded(r, pad)
    ensures Padded(g + r, pad)
  {
    var x := g + r;
    forall k | 0 <= k < |x| - pad ensures IsAlphabet(x[k]) {
      if k < |g| { assert x[k] == g[k]; } else { assert x[k] == r[k - |g|]; }
    }
    forall k | |x| - pad <= k < |x| ensures x[k] == '=' {
      assert x[k] == r[k - |g|];
    }
  }

  /** Python's `base64.b64encode(data).decode()`: four characters for every
      three bytes or fewer; a short last group is completed with zero bits
      and '='. */
  function Encode(data: seq<byte>): (r: string)
    ensures |r| == 4 * ((|data| + 2) / 3)
    decreases |data|
  {
    if |data| == 0 then []
    else if |data| == 1 then [CharOf(Sextet0(data[0])), CharOf(Sextet1(data[0], 0)), '=', '=']
    else if |data| == 2 then [CharOf(Sextet0(data[0])), CharOf(Sextet1(data[0], data[1])), CharOf(Sextet2(data[1], 0)), '=']
    else
      DivThreeStep(|data| - 3);
      EncodeGroup(data[0], data[1], data[2]) + Encode(data[3..])
  }

  lemma DivThreeStep(n: int)
    ensures (n + 3 + 2) / 3 == (n + 2) / 3 + 1
    ensures (n + 3) % 3 == n % 3
  {
  }

  /** The encoding is alphabet characters followed by as many '=' as the
      last group lacks bytes. */
  lemma {:induction false} EncodePadded(data: seq<byte>)
    ensures Padded(Encode(data), PadCount(|data|))
    decreases |data|
  {
    if |data| >= 3 {
      EncodePadded(data[3..]);
      DivThreeStep(|data| - 3);
      PaddedAppend(EncodeGroup(data[0], data[1], data[2]), Encode(data[3..]), PadCount(|data| - 3));
    }
  }

  // ---------------------------------------------------------------------------
  // Decoding.

  /** Four alphabet characters as three bytes. */
  function DecodeGroup(q: string): Option<seq<byte>>
    requires |q| == 4
  {
    if IsAlphabet(q[0]) && IsAlphabet(q[1]) && IsAlphabet(q[2]) && IsAlphabet(q[3]) then
      var v0, v1, v2, v3 := ValueOf(q[0]), ValueOf(q[1]), ValueOf(q[2]), ValueOf(q[3]);
      Some([Octet0(v0, v1), Octet1(v1, v2), Octet2(v2, v3)])
    else None
  }

  /** The final quartet, which may end in one or two '=' characters; bits
      that padding leaves unused must be zero. */
  function DecodeFinal(q: string): Option<seq<byte>>
    requires |q| == 4
  {
    if IsAlphabet(q[0]) && IsAlphabet(q[1]) && q[2] == '=' && q[3] == '=' then
      var v0, v1 := ValueOf(q[0]), ValueOf(q[1]);
      if v1 % 16 == 0 then Some([Octet0(v0, v1)]) else None
    else if IsAlphabet(q[0]) && IsAlphabet(q[1]) && IsAlphabet(q[2]) && q[3] == '=' then
      var v0, v1, v2 := ValueOf(q[0]), ValueOf(q[1]), ValueOf(q[2]);
      if v2 % 4 == 0 then Some([Octet0(v0, v1), Octet1(v1, v2)]) else None
    else DecodeGroup(q)
  }

  /** Strict decoding: `None` for anything `Encode` cannot produce. */
  function Decode(s: string): Option<seq<byte>>
    decreases |s|
  {
    if s == [] then Some([])
    else if |s| < 4 then None
    else if |s| == 4 then DecodeFinal(s)
    else
      match DecodeGroup(s[..4])
      case None => None
      case Some(g) =>
        match Decode(s[4..])
        case None => None
        case Some(rest) => Some(g + rest)
  }

  // ---------------------------------------------------------------------------
  // Decoding inverts encoding.

  lemma GroupRoundTrip(a: byte, b: byte, c: byte)
    ensures DecodeGroup(EncodeGroup(a, b, c)) == Some([a, b, c])
  {
    ValueOfCharOf(Sextet0(a));
    ValueOfCharOf(Sextet1(a, b));
    ValueOfCharOf(Sextet2(b, c));
    ValueOfCharOf(Sextet3(c));
    OctetsOfSextets(a, b, c);
  }

  lemma OneByteRoundTrip(a: byte)
    ensures Decode(Encode([a])) == Some([a])
  {
    var s := Encode([a]);
    assert s == [CharOf(Sextet0(a)), CharOf(Sextet1(a, 0)), '=', '='];
    var v0, v1 := Sextet0(a), Sextet1(a, 0);
    ValueOfCharOf(v0);
    ValueOfCharOf(v1);
    assert ValueOf(s[0]) == v0 && ValueOf(s[1]) == v1;
    assert Octet0(v0, v1) == a by { OctetsOfSextets(a, 0, 0); }
    assert v1 % 16 == 0 by { PaddingBitsZero(a, 0); }
    assert DecodeFinal(s) == Some([Octet0(v0, v1)]);
    assert Decode(s) == DecodeFinal(s);
  }

  lemma TwoByteRoundTrip(a: byte, b: byte)
    ensures Decode(Encode([a, b])) == Some([a, b])
  {
    var s := Encode([a, b]);
    assert s == [CharOf(Sextet0(a)), CharOf(Sextet1(a, b)), CharOf(Sextet2(b, 0)), '='];
    var v0, v1, v2 := Sextet0(a), Sextet1(a, b), Sextet2(b, 0);
    ValueOfCharOf(v0);
    ValueOfCharOf(v1);
    ValueOfCharOf(v2);
    assert ValueOf(s[0]) == v0 && ValueOf(s[1]) == v1 && ValueOf(s[2]) == v2;
    assert Octet0(v0, v1) == a && Octet1(v1, v2) == b by { OctetsOfSextets(a, b, 0); }
    assert v2 % 4 == 0 by { PaddingBitsZero(a, b); }
    assert s[2] != '=' && s[3] == '=';
    assert DecodeFinal(s) == Some([Octet0(v0, v1), Octet1(v1, v2)]);
    assert Decode(s) == DecodeFinal(s);
  }

  /** Decoding an encoding gives back the bytes. */
  lemma {:induction false} DecodeEncode(data: seq<byte>)
    ensures Decode(Encode(data)) == Some(data)
    decreases |data|
  {
    if |data| == 1 {
      assert data == [data[0]];
      OneByteRoundTrip(data[0]);
    } else if |data| == 2 {
      assert data == [data[0], data[1]];
      TwoByteRoundTrip(data[0], data[1]);
    } else if |data| == 3 {
      ThreeByteRoundTrip(data);
    } else if |data| > 3 {
      DecodeEncode(data[3..]);
      GroupThenRest(data);
    }
  }

  lemma ThreeByteRoundTrip(data: seq<byte>)
    requires |data| == 3
    ensures Decode(Encode(data)) == Some(data)
  {
    var a, b, c := data[0], data[1], data[2];
    var g := EncodeGroup(a, b, c);
    assert Encode(data) == g by {
      assert Encode(data[3..]) == [];
    }
    GroupRoundTrip(a, b, c);
    assert g[2] != '=' && g[3] != '=' by {
      assert IsAlphabet(g[2]) && IsAlphabet(g[3]);
    }
    assert Decode(g) == DecodeGroup(g);
    assert data == [a, b, c] by {
      FirstThree(data);
      assert data[3..] == [];
    }
  }

  /** One step of the induction: a whole group followed by a decodable rest. */
  lemma GroupThenRest(data: seq<byte>)
    requires |data| > 3 && Decode(Encode(data[3..])) == Some(data[3..])
    ensures Decode(Encode(data)) == Some(data)
  {
    var g := EncodeGroup(data[0], data[1], data[2]);
    var rest := Encode(data[3..]);
    assert Encode(data) == g + rest;
    GroupRoundTrip(data[0], data[1], data[2]);
    DecodeCons(g, rest);
    FirstThree(data);
  }

  /** A whole group followed by a decodable rest decodes group by group. */
  lemma DecodeCons(g: string, rest: string)
    requires |g| == 4 && |rest| >= 4 && DecodeGroup(g).Some? && Decode(rest).Some?
    ensures Decode(g + rest) == Some(DecodeGroup(g).value + Decode(rest).value)
  {
    var s := g + rest;
    assert s[..4] == g && s[4..] == rest;
  }

  lemma FirstThree(data: seq<byte>)
    requires |data| >= 3
    ensures [data[0], data[1], data[2]] + data[3..] == data
  {
    assert data[..3] == [data[0], data[1], data[2]];
    assert data[..3] + data[3..] == data;
  }

  // ---------------------------------------------------------------------------
  // Encoding inverts decoding.

  /** Alphabet characters are the characters of their values. */
  lemma CharsOfValues(q: string)
    requires |q| == 4 && IsAlphabet(q[0]) && IsAlphabet(q[1]) && IsAlphabet(q[2]) && IsAlphabet(q[3])
    ensures q == [CharOf(ValueOf(q[0])), CharOf(ValueOf(q[1])), CharOf(ValueOf(q[2])), CharOf(ValueOf(q[3]))]
  {
  }

  lemma GroupCanonical(q: string)
    requires |q| == 4 && DecodeGroup(q).Some?
    ensures var x := DecodeGroup(q).value; EncodeGroup(x[0], x[1], x[2]) == q
  {
    var v0, v1, v2, v3 := ValueOf(q[0]), ValueOf(q[1]), ValueOf(q[2]), ValueOf(q[3]);
    Sextet0OfOctet(v0, v1);
    Sextet1OfOctets(v0, v1, v2);
    Sextet2OfOctets(v1, v2, v3);
    Sextet3OfOctet(v2, v3);
    CharsOfValues(q);
  }

  /** A final quartet with two '=' is the encoding of the one byte it decodes to. */
  lemma TwoPadCanonical(q: string)
    requires |q| == 4 && IsAlphabet(q[0]) && IsAlphabet(q[1]) && q[2] == '=' && q[3] == '='
    requires ValueOf(q[1]) % 16 == 0
    ensures Encode(DecodeFinal(q).value) == q
  {
    var v0, v1 := ValueOf(q[0]), ValueOf(q[1]);
    Sextet0OfOctet(v0, v1);
    Sextet1OfOctets(v0, v1, 0);
    assert DecodeFinal(q).value == [Octet0(v0, v1)];
  }

  /** A final quartet with one '=' is the encoding of the two bytes it decodes to. */
  lemma OnePadCanonical(q: string)
    requires |q| == 4 && IsAlphabet(q[0]) && IsAlphabet(q[1]) && IsAlphabet(q[2]) && q[3] == '='
    requires ValueOf(q[2]) % 4 == 0
    ensures Encode(DecodeFinal(q).value) == q
  {
    var v0, v1, v2 := ValueOf(q[0]), ValueOf(q[1]), ValueOf(q[2]);
    var a, b := Octet0(v0, v1), Octet1(v1, v2);
    assert DecodeFinal(q).value == [a, b];
    assert Encode([a, b]) == [CharOf(Sextet0(a)), CharOf(Sextet1(a, b)), CharOf(Sextet2(b, 0)), '='];
    Sextet0OfOctet(v0, v1);
    Sextet1OfOctets(v0, v1, v2);
    Sextet2OfOctets(v1, v2, 0);
    assert q == [CharOf(v0), CharOf(v1), CharOf(v2), '='];
  }

  /** The final quartet is the encoding of whatever it decodes to. */
  lemma FinalCanonical(q: string)
    requires |q| == 4 && DecodeFinal(q).Some?
    ensures Encode(DecodeFinal(q).value) == q
  {
    if IsAlphabet(q[0]) && IsAlphabet(q[1]) && q[2] == '=' && q[3] == '=' {
      TwoPadCanonical(q);
    } else if IsAlphabet(q[0]) && IsAlphabet(q[1]) && IsAlphabet(q[2]) && q[3] == '=' {
      OnePadCanonical(q);
    } else {
      assert DecodeFinal(q) == DecodeGroup(q);
      GroupCanonical(q);
      var x := DecodeGroup(q).value;
      assert Encode(x) == EncodeGroup(x[0], x[1], x[2]) + Encode(x[3..]);
    }
  }

  /** The decoder accepts only canonical text: whatever it accepts is the encoding of what it returns. */
  lemma {:induction false} EncodeDecode(s: string)
    requires Decode(s).Some?
    ensures Encode(Decode(s).value) == s
    decreases |s|
  {
    if |s| == 4 {
      FinalCanonical(s);
    } else if |s| > 4 {
      var g := DecodeGroup(s[..4]).value;
      GroupCanonical(s[..4]);
      EncodeDecode(s[4..]);
      var rest := Decode(s[4..]).value;
      var data := g + rest;
      assert data[..3] == g && data[3..] == rest;
      assert Encode(data) == EncodeGroup(data[0], data[1], data[2]) + Encode(data[3..]);
      assert s == s[..4] + s[4..];
    }
  }

  /** The test vectors of section 10 of RFC 4648 ("", "f", "fo", "foo",
      "foobar"), which fix the alphabet and the bit order. */
  lemma StandardVectors()
    ensures Encode([]) == ""
    ensures Encode([102]) == "Zg=="
    ensures Encode([102, 111]) == "Zm8="
    ensures Encode([102, 111, 111]) == "Zm9v"
    ensures Encode([102, 111, 111, 98, 97, 114]) == "Zm9vYmFy"
    ensures Decode("Zm9vYmFy") == Some([102, 111, 111, 98, 97, 114])
  {
    ShortVectors();
    FooVector();
    FoobarVector();
    DecodeEncode([102, 111, 111, 98, 97, 114]);
  }

  lemma FoobarVector()
    ensures Encode([102, 111, 111, 98, 97, 114]) == "Zm9vYmFy"
  {
    FooVector();
    BarVector();
    var foobar: seq<byte> := [102, 111, 111, 98, 97, 114];
    assert foobar[3..] == [98, 97, 114];
  }

  lemma ShortVectors()
    ensures Encode([102]) == "Zg=="
    ensures Encode([102, 111]) == "Zm8="
  {
    assert CharOf(Sextet0(102)) == 'Z' && CharOf(Sextet1(102, 0)) == 'g';
    assert CharOf(Sextet1(102, 111)) == 'm' && CharOf(Sextet2(111, 0)) == '8';
  }

  lemma FooVector()
    ensures EncodeGroup(102, 111, 111) == "Zm9v"
    ensures Encode([102, 111, 111]) == "Zm9v"
  {
    assert CharOf(Sextet0(102)) == 'Z' && CharOf(Sextet1(102, 111)) == 'm';
    assert CharOf(Sextet2(111, 111)) == '9' && CharOf(Sextet3(111)) == 'v';
    assert [102, 111, 111][3..] == [];
  }

  lemma BarVector()
    ensures Encode([98, 97, 114]) == "YmFy"
  {
    assert CharOf(Sextet0(98)) == 'Y' && CharOf(Sextet1(98, 97)) == 'm';
    assert CharOf(Sextet2(97, 114)) == 'F' && CharOf(Sextet3(114)) == 'y';
    assert [98, 97, 114][3..] == [];
  }
}

=== FILE: cleaning.dfy ===
/**
 Normalisation of the text the engine returns: strip surrounding
 whitespace, delete code-fence markers at line starts and line ends, and
 delete up to four boilerplate lead-ins, each tried once in a fixed order.

 The two fence patterns are regular expressions in multi-line mode; they are
 written out here as scans over the characters. `\w` is taken to be the
 ASCII letters, digits and underscore.
 */
module Cleaning {
  import opened Text

  const Fence := "```"

  /** The ASCII reading of the regular-expression class `\w`. */
  predicate IsWordChar(c: char) {
    ('a' <= c <= 'z') || ('A' <= c <= 'Z') || ('0' <= c <= '9') || c == '_'
  }

  /** Length of the longest run of word characters at the start of `s`. */
  function WordRun(s: string): (n: nat)
    ensures n <= |s|
    ensures forall k :: 0 <= k < n ==> IsWordChar(s[k])
    ensures n < |s| ==> !IsWordChar(s[n])
  {
    if s == [] || !IsWordChar(s[0]) then 0 else 1 + WordRun(s[1..])
  }

  /** Length of the match of "```", word characters and an optional newline at
      the start of `s`; 0 when `s` does not start with a fence. */
  function OpeningMatch(s: string): (n: nat)
    ensures n <= |s|
    ensures n > 0 <==> StartsWith(s, Fence)
  {
    if !StartsWith(s, Fence) then 0
    else
      var w := 3 + WordRun(s[3..]);
      if w < |s| && s[w] == '\n' then w + 1 else w
  }

  /** The first fence substitution, applied to the rest `s` of the text.
      `atLineStart` says whether `s` begins a line of the original text (it is
      the whole text, or the character before it was a newline); a match is
      only tried there, and scanning resumes after the deleted match. */
  function RemoveOpeningFences(s: string, atLineStart: bool): string
    decreases |s|
  {
    if s == [] then []
    else if atLineStart && OpeningMatch(s) > 0 then
      var n := OpeningMatch(s);
      RemoveOpeningFences(s[n..], s[n - 1] == '\n')
    else [s[0]] + RemoveOpeningFences(s[1..], s[0] == '\n')
  }

  /** Length of the match of an optional newline and "```" at the start of
      `s`, which must be followed by the end of the text or a newline; 0 when
      there is none. The version with the newline is tried first. */
  function ClosingMatch(s: string): (n: nat)
    ensures n <= |s|
    ensures n == 0 || n == 3 || n == 4
  {
    if |s| >= 4 && s[0] == '\n' && s[1..4] == Fence && (|s| == 4 || s[4] == '\n') then 4
    else if StartsWith(s, Fence) && (|s| == 3 || s[3] == '\n') then 3
    else 0
  }

  /** The second fence substitution: scan left to right, deleting each match. */
  function RemoveClosingFences(s: string): string
    decreases |s|
  {
    if s == [] then []
    else if ClosingMatch(s) > 0 then RemoveClosingFences(s[ClosingMatch(s)..])
    else [s[0]] + RemoveClosingFences(s[1..])
  }

  /** The boilerplate lead-ins, in the order they are tried. */
  const Prefixes: seq<string> := [
    "Here is the text from the image:",
    "The text in the image is:",
    "Text extracted from image:",
    "The extracted text is:"
  ]

  predicate StartsWithIgnoringCase(s: string, p: string) {
    StartsWith(Lower(s), Lower(p))
  }

  /** Try each prefix once, in order; a match is cut off and the rest re-stripped. */
  function RemovePrefixes(s: string, ps: seq<string>): string
    decreases |ps|
  {
    if ps == [] then s
    else
      var s' := if StartsWithIgnoringCase(s, ps[0]) then Strip(s[|ps[0]|..]) else s;
      RemovePrefixes(s', ps[1..])
  }

  /** The cleaned text: empty input gives the empty string; otherwise strip,
      remove fences, remove boilerplate lead-ins, strip again. */
  function CleanExtractedText(text: string): (r: string)
    ensures text == [] ==> r == []
    ensures r == [] || (!IsSpace(r[0]) && !IsSpace(r[|r| - 1]))
  {
    if text == [] then []
    else
      var stripped := Strip(text);
      var unfenced := RemoveClosingFences(RemoveOpeningFences(stripped, true));
      var trimmed := RemovePrefixes(unfenced, Prefixes);
      StripSpec(trimmed);
      Strip(trimmed)
  }

  // ---------------------------------------------------------------------------
  // Cleaning only deletes characters.

  lemma {:induction false} OpeningFencesDelete(s: string, atLineStart: bool)
    ensures Subseq(RemoveOpeningFences(s, atLineStart), s)
    decreases |s|
  {
    if s == [] {
    } else if atLineStart && OpeningMatch(s) > 0 {
      var n := OpeningMatch(s);
      OpeningFencesDelete(s[n..], s[n - 1] == '\n');
      SubseqOfSuffix(RemoveOpeningFences(s, atLineStart), s, n);
    } else {
      OpeningFencesDelete(s[1..], s[0] == '\n');
      SubseqCons(s[0], RemoveOpeningFences(s[1..], s[0] == '\n'), s[1..]);
      assert [s[0]] + s[1..] == s;
    }
  }

  lemma {:induction false} ClosingFencesDelete(s: string)
    ensures Subseq(RemoveClosingFences(s), s)
    decreases |s|
  {
    if s == [] {
    } else if ClosingMatch(s) > 0 {
      var n := ClosingMatch(s);
      ClosingFencesDelete(s[n..]);
      SubseqOfSuffix(RemoveClosingFences(s), s, n);
    } else {
      ClosingFencesDelete(s[1..]);
      SubseqCons(s[0], RemoveClosingFences(s[1..]), s[1..]);
      assert [s[0]] + s[1..] == s;
    }
  }

  lemma {:induction false} PrefixesDelete(s: string, ps: seq<string>)
    ensures Subseq(RemovePrefixes(s, ps), s)
    decreases |ps|
  {
    if ps == [] {
      SubseqRefl(s);
    } else if StartsWithIgnoringCase(s, ps[0]) {
      var rest := s[|ps[0]|..];
      PrefixesDelete(Strip(rest), ps[1..]);
      StripIsSubseq(rest);
      SubseqTrans(RemovePrefixes(s, ps), Strip(rest), rest);
      SubseqOfSuffix(RemovePrefixes(s, ps), s, |ps[0]|);
    } else {
      PrefixesDelete(s, ps[1..]);
    }
  }

  /** The cleaned text is obtained from the raw text by deleting characters,
      so it is never longer. */
  lemma CleanOnlyDeletes(text: string)
    ensures Subseq(CleanExtractedText(text), text)
    ensures |CleanExtractedText(text)| <= |text|
  {
    if text != [] {
      var stripped := Strip(text);
      var afterOpening := RemoveOpeningFences(stripped, true);
      var unfenced := RemoveClosingFences(afterOpening);
      var trimmed := RemovePrefixes(unfenced, Prefixes);
      StripIsSubseq(text);
      OpeningFencesDelete(stripped, true);
      ClosingFencesDelete(afterOpening);
      PrefixesDelete(unfenced, Prefixes);
      StripIsSubseq(trimmed);
      SubseqTrans(afterOpening, stripped, text);
      SubseqTrans(unfenced, afterOpening, text);
      SubseqTrans(trimmed, unfenced, text);
      SubseqTrans(Strip(trimmed), trimmed, text);
    }
    SubseqLength(CleanExtractedText(text), text);
  }

  // ---------------------------------------------------------------------------
  // Text without backticks is not touched by the fence substitutions.

  lemma {:induction false} OpeningFencesNeedBacktick(s: string, atLineStart: bool)
    requires '`' !in s
    ensures RemoveOpeningFences(s, atLineStart) == s
    decreases |s|
  {
    if s != [] {
      assert s[0] != '`';
      assert !StartsWith(s, Fence) by {
        if |s| >= 3 { assert s[..3][0] == s[0]; }
      }
      assert RemoveOpeningFences(s, atLineStart)
          == [s[0]] + RemoveOpeningFences(s[1..], s[0] == '\n');
      assert forall c :: c in s[1..] ==> c in s;
      OpeningFencesNeedBacktick(s[1..], s[0] == '\n');
      assert [s[0]] + s[1..] == s;
    }
  }

  lemma {:induction false} ClosingFencesNeedBacktick(s: string)
    requires '`' !in s
    ensures RemoveClosingFences(s) == s
    decreases |s|
  {
    if s != [] {
      assert ClosingMatch(s) == 0 by {
        assert s[0] != '`';
        if |s| >= 3 { assert s[..3][0] == s[0]; }
        if |s| >= 4 { assert s[1] in s; assert s[1..4][0] == s[1]; }
      }
      assert RemoveClosingFences(s) == [s[0]] + RemoveClosingFences(s[1..]);
      NotInTail('`', s);
      ClosingFencesNeedBacktick(s[1..]);
      assert [s[0]] + s[1..] == s;
    }
  }

  lemma {:induction false} NoPrefixUnchanged(s: string, ps: seq<string>)
    requires forall k :: 0 <= k < |ps| ==> !StartsWithIgnoringCase(s, ps[k])
    ensures RemovePrefixes(s, ps) == s
    decreases |ps|
  {
    if ps != [] {
      assert !StartsWithIgnoringCase(s, ps[0]);
      NoPrefixUnchanged(s, ps[1..]);
    }
  }

  /** Text with no backtick and no lead-in cleans to its strip. */
  lemma CleanPlainText(text: string)
    requires '`' !in text
    requires forall k :: 0 <= k < |Prefixes| ==> !StartsWithIgnoringCase(Strip(text), Prefixes[k])
    ensures CleanExtractedText(text) == Strip(text)
  {
    if text != [] {
      var stripped := Strip(text);
      StripIsSubseq(text);
      SubseqNotIn('`', stripped, text);
      OpeningFencesNeedBacktick(stripped, true);
      ClosingFencesNeedBacktick(stripped);
      NoPrefixUnchanged(stripped, Prefixes);
      StripIdempotent(text);
    }
  }

  // ---------------------------------------------------------------------------
  // Opening fences: lines are handled independently, and a fence line at a
  // line start goes together with its newline.

  lemma {:induction false} WordRunStops(u: string, v: string)
    requires u != [] && !IsWordChar(u[|u| - 1])
    ensures WordRun(u + v) == WordRun(u)
    decreases |u|
  {
    if IsWordChar(u[0]) {
      assert |u| > 1;
      assert (u + v)[1..] == u[1..] + v;
      WordRunStops(u[1..], v);
    }
  }

  lemma {:induction false} WordRunOfWord(w: string, v: string)
    requires forall k :: 0 <= k < |w| ==> IsWordChar(w[k])
    requires v != [] && !IsWordChar(v[0])
    ensures WordRun(w + v) == |w|
    decreases |w|
  {
    if w != [] {
      assert (w + v)[1..] == w[1..] + v;
      WordRunOfWord(w[1..], v);
    }
  }

  /** A match cannot run past the newline ending a line. */
  lemma OpeningMatchWithinLine(s: string, t: string)
    requires s != [] && s[|s| - 1] == '\n'
    ensures OpeningMatch(s + t) == OpeningMatch(s)
  {
    var x := s + t;
    if |s| < 4 {
      assert x[|s| - 1] == '\n';
      assert !StartsWith(x, Fence) && !StartsWith(s, Fence);
    } else {
      assert x[..3] == s[..3];
      if StartsWith(s, Fence) {
        assert x[3..] == s[3..] + t;
        WordRunStops(s[3..], t);
        var w := 3 + WordRun(s[3..]);
        assert w < |s|;
        assert x[w] == s[w];
      }
    }
  }

  /** One step of the scan over a line followed by more text, when a fence
      is cut at its start. */
  lemma OpeningFencesStepMatch(s: string, t: string, atLineStart: bool)
    requires s != [] && s[|s| - 1] == '\n'
    requires atLineStart && OpeningMatch(s) > 0
    ensures var n := OpeningMatch(s);
      && RemoveOpeningFences(s + t, atLineStart) == RemoveOpeningFences(s[n..] + t, s[n - 1] == '\n')
      && RemoveOpeningFences(s, atLineStart) == RemoveOpeningFences(s[n..], s[n - 1] == '\n')
  {
    var x := s + t;
    OpeningMatchWithinLine(s, t);
    var n := OpeningMatch(s);
    assert x[n - 1] == s[n - 1];
    DropAppend(s, t, n);
  }

  /** One step of the scan over a line followed by more text, when the first
      character is kept. */
  lemma OpeningFencesStepKeep(s: string, t: string, atLineStart: bool)
    requires s != [] && s[|s| - 1] == '\n'
    requires !(atLineStart && OpeningMatch(s) > 0)
    ensures RemoveOpeningFences(s + t, atLineStart) == [s[0]] + RemoveOpeningFences(s[1..] + t, s[0] == '\n')
    ensures RemoveOpeningFences(s, atLineStart) == [s[0]] + RemoveOpeningFences(s[1..], s[0] == '\n')
  {
    var x := s + t;
    OpeningMatchWithinLine(s, t);
    assert x[0] == s[0];
    DropAppend(s, t, 1);
  }

  /** Text made of whole lines is cleaned on its own, and the text after it is
      cleaned as if it began the text. */
  lemma {:induction false} OpeningFencesByLine(s: string, t: string, atLineStart: bool)
    requires s == [] || s[|s| - 1] == '\n'
    ensures RemoveOpeningFences(s + t, atLineStart)
         == RemoveOpeningFences(s, atLineStart) + RemoveOpeningFences(t, s != [] || atLineStart)
    decreases |s|, 1
  {
    if s == [] {
      assert s + t == t;
    } else if atLineStart && OpeningMatch(s) > 0 {
      OpeningFencesByLineMatch(s, t, atLineStart);
    } else {
      OpeningFencesByLineKeep(s, t, atLineStart);
    }
  }

  lemma {:induction false} OpeningFencesByLineMatch(s: string, t: string, atLineStart: bool)
    requires s != [] && s[|s| - 1] == '\n'
    requires atLineStart && OpeningMatch(s) > 0
    ensures RemoveOpeningFences(s + t, atLineStart)
         == RemoveOpeningFences(s, atLineStart) + RemoveOpeningFences(t, true)
    decreases |s|, 0
  {
    OpeningFencesStepMatch(s, t, atLineStart);
    var n := OpeningMatch(s);
    var rest, flag := s[n..], s[n - 1] == '\n';
    assert RemoveOpeningFences(rest + t, flag)
        == RemoveOpeningFences(rest, flag) + RemoveOpeningFences(t, true) by {
      OpeningFencesByLine(rest, t, flag);
      assert rest == [] ==> flag;
    }
  }

  lemma {:induction false} OpeningFencesByLineKeep(s: string, t: string, atLineStart: bool)
    requires s != [] && s[|s| - 1] == '\n'
    requires !(atLineStart && OpeningMatch(s) > 0)
    ensures RemoveOpeningFences(s + t, atLineStart)
         == RemoveOpeningFences(s, atLineStart) + RemoveOpeningFences(t, true)
    decreases |s|, 0
  {
    OpeningFencesStepKeep(s, t, atLineStart);
    var rest, flag := s[1..], s[0] == '\n';
    var a, b := RemoveOpeningFences(rest, flag), RemoveOpeningFences(t, true);
    assert RemoveOpeningFences(rest + t, flag) == a + b by {
      OpeningFencesByLine(rest, t, flag);
      assert rest == [] ==> flag;
    }
    ConsAppend(s[0], a, b);
  }

  /** A line "```" followed by a word (a language tag) and a newline is deleted
      entirely when it begins the text or follows a newline. */
  lemma OpeningFenceLineRemoved(w: string, t: string)
    requires forall k :: 0 <= k < |w| ==> IsWordChar(w[k])
    ensures RemoveOpeningFences(Fence + w + "\n" + t, true) == RemoveOpeningFences(t, true)
  {
    var x := Fence + w + "\n" + t;
    assert x[..3] == Fence;
    assert x[3..] == w + ("\n" + t);
    WordRunOfWord(w, "\n" + t);
    assert x[3 + |w|] == '\n';
    assert OpeningMatch(x) == 4 + |w|;
    assert x[4 + |w|..] == t;
  }

  // ---------------------------------------------------------------------------
  // Closing fences: a fence ending a line goes together with the newline before it.

  /** Text after which a newline (or nothing) follows keeps its match. */
  lemma ClosingMatchBeforeNewline(s: string, t: string)
    requires s != [] && (t == [] || t[0] == '\n')
    ensures ClosingMatch(s + t) == ClosingMatch(s)
  {
    var x := s + t;
    if |s| >= 5 {
      assert x[..5] == s[..5];
    } else if t != [] {
      assert x[|s|] == '\n';
      assert forall i :: 0 <= i < |s| ==> x[i] == s[i];
      if |s| == 4 {
        assert x[1..4] == s[1..4];
        assert x[..3] == s[..3];
      } else if |s| == 3 {
        assert x[..3] == s;
      } else {
        assert !StartsWith(x, Fence) by {
          if |x| >= 3 { assert x[..3][|s|] == '\n'; }
        }
        assert |x| >= 4 ==> x[1..4][|s| - 1] == '\n';
      }
    } else {
      assert x == s;
    }
  }

  /** The substitution distributes over a split point that is followed by a newline. */
  lemma {:induction false} ClosingFencesSplit(s: string, t: string)
    requires t == [] || t[0] == '\n'
    ensures RemoveClosingFences(s + t) == RemoveClosingFences(s) + RemoveClosingFences(t)
    decreases |s|
  {
    if s == [] {
      assert s + t == t;
    } else if ClosingMatch(s) > 0 {
      ClosingFencesStepMatch(s, t);
      ClosingFencesSplit(s[ClosingMatch(s)..], t);
    } else {
      ClosingFencesStepKeep(s, t);
      ClosingFencesSplit(s[1..], t);
      ConsAppend(s[0], RemoveClosingFences(s[1..]), RemoveClosingFences(t));
    }
  }

  /** A match at the split's left side is the same match in the joined text. */
  lemma ClosingFencesStepMatch(s: string, t: string)
    requires s != [] && (t == [] || t[0] == '\n') && ClosingMatch(s) > 0
    ensures RemoveClosingFences(s + t) == RemoveClosingFences(s[ClosingMatch(s)..] + t)
    ensures RemoveClosingFences(s) == RemoveClosingFences(s[ClosingMatch(s)..])
  {
    ClosingMatchBeforeNewline(s, t);
    DropAppend(s, t, ClosingMatch(s));
  }

  /** No match at the split's left side: the first character is kept in both. */
  lemma ClosingFencesStepKeep(s: string, t: string)
    requires s != [] && (t == [] || t[0] == '\n') && ClosingMatch(s) == 0
    ensures RemoveClosingFences(s + t) == [s[0]] + RemoveClosingFences(s[1..] + t)
    ensures RemoveClosingFences(s) == [s[0]] + RemoveClosingFences(s[1..])
  {
    ClosingMatchBeforeNewline(s, t);
    DropAppend(s, t, 1);
    assert (s + t)[0] == s[0];
  }

  /** "```" ending a line is deleted with the newline before it. */
  lemma ClosingFenceLineRemoved(s: string, t: string)
    requires t == [] || t[0] == '\n'
    ensures RemoveClosingFences(s + "\n" + Fence + t) == RemoveClosingFences(s) + RemoveClosingFences(t)
  {
    var f := "\n" + Fence;
    assert s + "\n" + Fence + t == s + (f + t);
    assert RemoveClosingFences(s + (f + t)) == RemoveClosingFences(s) + RemoveClosingFences(f + t) by {
      ClosingFencesSplit(s, f + t);
    }
    assert RemoveClosingFences(f + t) == RemoveClosingFences(t) by {
      ClosingFencesSplit(f, t);
      ClosingFenceAlone();
    }
  }

  lemma ClosingFenceAlone()
    ensures RemoveClosingFences("\n" + Fence) == []
  {
    var f := "\n" + Fence;
    assert f[1..4] == Fence;
    assert ClosingMatch(f) == 4;
    assert f[4..] == [];
  }

  // ---------------------------------------------------------------------------
  // The lead-ins: each is tried once, in the listed order, ignoring case.

  lemma LeadInMatches(p: string, rest: string)
    ensures StartsWithIgnoringCase(p + rest, p)
  {
    assert Lower(p + rest)[..|p|] == Lower(p);
  }

  lemma LeadInMismatch(s: string, p: string)
    requires s != [] && p != [] && LowerChar(s[0]) != LowerChar(p[0])
    ensures !StartsWithIgnoringCase(s, p)
  {
    if |p| <= |s| {
      assert Lower(s)[..|p|][0] != Lower(p)[0];
    }
  }

  /** A lead-in is tried once: after it is removed, the same lead-in at the
      start of what remains stays. */
  lemma LeadInTriedOnce(p: string, rest: string)
    ensures RemovePrefixes(p + rest, [p]) == Strip(rest)
  {
    LeadInMatches(p, rest);
    assert (p + rest)[|p|..] == rest;
  }

  /** Lead-ins match regardless of ASCII case. */
  lemma LeadInIgnoresCase(p: string, q: string, rest: string)
    requires Lower(q) == Lower(p)
    ensures RemovePrefixes(q + rest, [p]) == Strip(rest)
  {
    LeadInMatches(q, rest);
    assert |q| == |p|;
    assert (q + rest)[|p|..] == rest;
  }

  /** Lead-ins are tried in the listed order and never revisited: when the
      first does not match but the second does, the first is not tried again
      on what remains. */
  lemma LeadInsNotRevisited(a: string, b: string, rest: string)
    requires !StartsWithIgnoringCase(b + rest, a)
    ensures RemovePrefixes(b + rest, [a, b]) == Strip(rest)
  {
    assert [a, b][1..] == [b];
    LeadInTriedOnce(b, rest);
  }

  /** A fenced code block whose opening line carries a language tag, and whose
      contents end with a newline, cleans to its stripped contents. */
  lemma CleanFencedBlock(lang: string, body: string)
    requires forall k :: 0 <= k < |lang| ==> IsWordChar(lang[k])
    requires body != [] && body[|body| - 1] == '\n' && '`' !in body
    requires forall k :: 0 <= k < |Prefixes| ==> !StartsWithIgnoringCase(body, Prefixes[k])
    ensures CleanExtractedText(Fence + lang + "\n" + body + Fence) == Strip(body)
  {
    var text := Fence + lang + "\n" + body + Fence;
    assert Strip(text) == text by {
      assert text[0] == '`' && text[|text| - 1] == '`';
      StripSurrounded([], text, []);
      assert [] + text + [] == text;
    }
    FencedBlockOpening(lang, body);
    assert RemoveClosingFences(body) == body by {
      ClosingFencesNeedBacktick(body);
    }
    var unfenced := RemoveClosingFences(RemoveOpeningFences(Strip(text), true));
    assert unfenced == body;
    assert RemovePrefixes(body, Prefixes) == body by {
      NoPrefixUnchanged(body, Prefixes);
    }
    assert text != [];
    assert CleanExtractedText(text) == Strip(RemovePrefixes(unfenced, Prefixes));
  }

  lemma FencedBlockOpening(lang: string, body: string)
    requires forall k :: 0 <= k < |lang| ==> IsWordChar(lang[k])
    requires body != [] && body[|body| - 1] == '\n' && '`' !in body
    ensures RemoveOpeningFences(Fence + lang + "\n" + body + Fence, true) == body
  {
    assert Fence + lang + "\n" + body + Fence == Fence + lang + "\n" + (body + Fence);
    OpeningFenceLineRemoved(lang, body + Fence);
    assert RemoveOpeningFences(body + Fence, true)
        == RemoveOpeningFences(body, true) + RemoveOpeningFences(Fence, true) by {
      OpeningFencesByLine(body, Fence, true);
    }
    OpeningFencesNeedBacktick(body, true);
    FenceAloneRemoved();
  }

  lemma FenceAloneRemoved()
    ensures RemoveOpeningFences(Fence, true) == []
  {
    assert OpeningMatch(Fence) == 3;
    assert Fence[3..] == [];
  }
}

=== FILE: common.dfy ===
/**
 The small vocabulary shared by every other module: optional values, results
 that carry either a value or an error, and bytes.
 */
module Common {

  /** A value that may be absent (Python's `None`). */
  datatype Option<+T> = None | Some(value: T)

  /** Either a computed value or the error that replaced it (a raised exception). */
  datatype Result<+T, +E> = Success(value: T) | Failure(error: E)

  /** A check that passes or fails with a reason (a function that returns
      nothing or raises). */
  datatype Outcome<+E> = Pass | Fail(error: E)

  /** One octet of uploaded content. */
  type byte = x: int | 0 <= x < 256
}

=== FILE: config.dfy ===
/**
 Process settings read once from the environment, and the three derived
 values the rest of the service uses: the upload ceiling in bytes, the MIME
 allow-list and the list of cross-origin callers.
 */
module Config {
  import opened Text

  datatype Settings = Settings(
    ollamaHost: string,
    ollamaModel: string,
    requestTimeoutMs: int,
    maxUploadMb: int,
    allowedImageMime: string,
    allowedOrigins: string,
    host: string,
    port: int)

  /** The values used when the environment sets nothing. */
  const Defaults := Settings(
    "http://localhost:11434",
    "llava",
    60000,
    10,
    "image/png,image/jpeg,image/webp",
    "http://localhost:8080,http://localhost:3000",
    "0.0.0.0",
    8000)

  const BytesPerMb := 1024 * 1024

  /** The upload ceiling: a whole number of mebibytes, converted exactly. */
  function MaxUploadBytes(s: Settings): (n: int)
    ensures n % BytesPerMb == 0
    ensures n / BytesPerMb == s.maxUploadMb
  {
    s.maxUploadMb * 1024 * 1024
  }

  /** `[item.strip() for item in text.split(",")]`. */
  function CommaList(text: string): (items: seq<string>)
    ensures |items| == Count(text, ',') + 1
    ensures forall k :: 0 <= k < |items| ==> ',' !in items[k]
    ensures forall k :: 0 <= k < |items| ==> IsStripAt(items[k], Split(text, ',')[k], LeadingSpace(Split(text, ',')[k]))
  {
    var parts := Split(text, ',');
    StripEach(parts);
    seq(|parts|, k requires 0 <= k < |parts| => Strip(parts[k]))
  }

  lemma StripEach(parts: seq<string>)
    ensures forall k :: 0 <= k < |parts| ==> IsStripAt(Strip(parts[k]), parts[k], LeadingSpace(parts[k]))
  {
    forall k | 0 <= k < |parts|
      ensures IsStripAt(Strip(parts[k]), parts[k], LeadingSpace(parts[k]))
    {
      StripSpec(parts[k]);
    }
  }

  /** The MIME types an upload's sniffed type must belong to. */
  function AllowedMimeTypes(s: Settings): seq<string> {
    CommaList(s.allowedImageMime)
  }

  /** The origins allowed to call the service from a browser. */
  function CorsOrigins(s: Settings): seq<string> {
    CommaList(s.allowedOrigins)
  }

  /** The allow-list has one type per comma-separated piece of the setting,
      each without commas and without surrounding whitespace. */
  lemma MimeTypeItems(s: Settings)
    ensures |AllowedMimeTypes(s)| == Count(s.allowedImageMime, ',') + 1
    ensures forall k :: 0 <= k < |AllowedMimeTypes(s)| ==>
      ',' !in AllowedMimeTypes(s)[k] && Strip(AllowedMimeTypes(s)[k]) == AllowedMimeTypes(s)[k]
  {
    CommaListItems(s.allowedImageMime);
  }

  /** The origin list has one origin per comma-separated piece of the
      setting, each without commas and without surrounding whitespace. */
  lemma CorsOriginItems(s: Settings)
    ensures |CorsOrigins(s)| == Count(s.allowedOrigins, ',') + 1
    ensures forall k :: 0 <= k < |CorsOrigins(s)| ==>
      ',' !in CorsOrigins(s)[k] && Strip(CorsOrigins(s)[k]) == CorsOrigins(s)[k]
  {
    CommaListItems(s.allowedOrigins);
  }

  /** Every item of a comma list is already stripped. */
  lemma CommaListItems(text: string)
    ensures forall k :: 0 <= k < |CommaList(text)| ==> Strip(CommaList(text)[k]) == CommaList(text)[k]
  {
    var parts := Split(text, ',');
    forall k | 0 <= k < |CommaList(text)|
      ensures Strip(CommaList(text)[k]) == CommaList(text)[k]
    {
      assert CommaList(text)[k] == Strip(parts[k]);
      StripIdempotent(parts[k]);
    }
  }

  /** With nothing configured the ceiling is 10 MiB. */
  lemma DefaultMaxUploadBytes()
    ensures MaxUploadBytes(Defaults) == 10485760
  {
  }

  /** The list items appear in the order of the configured text: rejoining the
      unstripped pieces with commas restores the setting. */
  lemma CommaListOrder(text: string)
    ensures |CommaList(text)| == |Split(text, ',')|
    ensures Join(Split(text, ','), ",") == text
  {
    JoinSplit(text, ',');
  }

  /** With nothing configured the allow-list is PNG, JPEG and WebP, in that order. */
  lemma DefaultAllowedMimeTypes()
    ensures AllowedMimeTypes(Defaults) == ["image/png", "image/jpeg", "image/webp"]
  {
    var parts := ["image/png", "image/jpeg", "image/webp"];
    assert Join(parts, ",") == Defaults.allowedImageMime;
    CommaListOfJoin(parts);
  }

  /** With nothing configured the browser origins are the two local front ends. */
  lemma DefaultCorsOrigins()
    ensures CorsOrigins(Defaults) == ["http://localhost:8080", "http://localhost:3000"]
  {
    var parts := ["http://localhost:8080", "http://localhost:3000"];
    assert Join(parts, ",") == Defaults.allowedOrigins;
    CommaListOfJoin(parts);
  }

  /** Items written without spaces or commas come back exactly as written. */
  lemma CommaListOfJoin(parts: seq<string>)
    requires |parts| >= 1
    requires forall k, m :: 0 <= k < |parts| && 0 <= m < |parts[k]| ==> '!' <= parts[k][m] <= '~' && parts[k][m] != ','
    ensures CommaList(Join(parts, ",")) == parts
  {
    assert forall k :: 0 <= k < |parts| ==> ',' !in parts[k];
    SplitJoin(parts, ',');
    forall k | 0 <= k < |parts|
      ensures Strip(parts[k]) == parts[k]
    {
      StripSolid(parts[k]);
    }
  }

  /** A string of visible ASCII characters is its own strip. */
  lemma StripSolid(s: string)
    requires forall k :: 0 <= k < |s| ==> '!' <= s[k] <= '~'
    ensures Strip(s) == s
  {
    assert s[0..|s|] == s;
    assert IsStripAt(s, s, 0);
    StripUnique(s, s, 0);
  }
}

=== FILE: errors.dfy ===
/**
 The service's exception taxonomy and the mapping of any exception to the
 standard error body `{error, message, code}`.
 */
module Errors {
  import opened Json
  import opened Schemas

  /** The concrete class of an engine-related exception. */
  datatype OllamaKind = Base | Connection | Timeout | Model

  /** Every exception the service can raise or meet. */
  datatype Exception =
      /** The engine family: a message and the HTTP status it maps to. */
    | OllamaError(kind: OllamaKind, message: string, statusCode: int)
      /** A framework HTTP exception; `imageValidation` marks the upload-rejection subclass. */
    | HttpException(statusCode: int, detail: string, imageValidation: bool)
      /** Anything else, with the text Python would show for it. */
    | OtherException(text: string)

  const DefaultConnectionMessage := "Cannot connect to Ollama. Make sure Ollama is running at the configured host."
  const DefaultTimeoutMessage := "Request to Ollama timed out. The image processing is taking too long."
  const InternalMessage := "An unexpected error occurred"

  /** Cannot reach the engine. */
  function ConnectionError(message: string): (e: Exception)
    ensures e.OllamaError? && e.kind == Connection && e.message == message
    ensures e.statusCode == 503
  {
    OllamaError(Connection, message, 503)
  }

  /** The engine did not answer in time. */
  function TimeoutError(): (e: Exception)
    ensures e.OllamaError? && e.kind == Timeout
    ensures e.statusCode == 504
  {
    OllamaError(Timeout, DefaultTimeoutMessage, 504)
  }

  /** The engine does not know the model; the default message names it twice. */
  function ModelError(model: string): (e: Exception)
    ensures e.OllamaError? && e.kind == Model
    ensures e.statusCode == 503
    ensures e.message == "Model '" + model + "' not found. Try running: ollama pull " + model
  {
    OllamaError(Model, "Model '" + model + "' not found. Try running: ollama pull " + model, 503)
  }

  /** An upload was rejected: an HTTP exception with status 400 and the reason as detail. */
  function ImageValidationError(message: string): (e: Exception)
    ensures e.HttpException? && e.imageValidation
    ensures e.statusCode == 400 && e.detail == message
  {
    HttpException(400, message, true)
  }

  /** Python's `type(e).__name__` for the engine family. */
  function ClassName(kind: OllamaKind): string {
    match kind
    case Base => "OllamaError"
    case Connection => "OllamaConnectionError"
    case Timeout => "OllamaTimeoutError"
    case Model => "OllamaModelError"
  }

  /** The standard error body for any exception. */
  function CreateErrorResponse(e: Exception): (r: ErrorResponse)
    ensures e.OllamaError? ==> r.error == ClassName(e.kind) && r.message == e.message && r.code == e.statusCode
    ensures e.HttpException? ==> r.error == "ValidationError" && r.message == e.detail && r.code == e.statusCode
    ensures e.OtherException? ==> r.error == "InternalServerError" && r.message == InternalMessage && r.code == 500
  {
    match e
    case OllamaError(kind, message, status) => ErrorResponse(ClassName(kind), message, status)
    case HttpException(status, detail, _) => ErrorResponse("ValidationError", detail, status)
    case OtherException(_) => ErrorResponse("InternalServerError", InternalMessage, 500)
  }

  /** The error body as the JSON object that is sent. */
  function ErrorBody(r: ErrorResponse): (j: map<string, Value>)
    ensures j.Keys == {"error", "message", "code"}
    ensures j["error"] == JStr(r.error) && j["message"] == JStr(r.message) && j["code"] == JInt(r.code)
  {
    map["error" := JStr(r.error), "message" := JStr(r.message), "code" := JInt(r.code)]
  }

  /** The engine errors keep their class apart in the body: the error name identifies the kind. */
  lemma ClassNameInjective(a: OllamaKind, b: OllamaKind)
    requires ClassName(a) == ClassName(b)
    ensures a == b
  {
  }

  /** Unexpected exceptions do not leak: two of them produce the same body, whatever their text. */
  lemma InternalErrorsIndistinguishable(t1: string, t2: string)
    ensures CreateErrorResponse(OtherException(t1)) == CreateErrorResponse(OtherException(t2))
  {
  }

  /** The fixed status of each raised engine error and of an upload rejection, as seen in the body. */
  lemma StatusCodes(message: string, model: string)
    ensures CreateErrorResponse(ConnectionError(message)).code == 503
    ensures CreateErrorResponse(TimeoutError()).code == 504
    ensures CreateErrorResponse(ModelError(model)).code == 503
    ensures CreateErrorResponse(ImageValidationError(message)) == ErrorResponse("ValidationError", message, 400)
  {
  }
}

=== FILE: image_utils.dfy ===
/**
 Validation of an uploaded image, in the fixed order the service applies:
 file name present, then size within bounds, then the sniffed MIME type in
 the allow-list, then decodability; followed by base64 encoding. The MIME
 sniffer, the image decoder and the rendering of a size in megabytes are
 foreign code and enter as functions of the content.
 */
module ImageUtils {
  import opened Common
  import opened Text
  import opened Config
  import opened Errors
  import Base64

  /** An upload as it reaches the service: the client's file name, if any, and the bytes. */
  datatype Upload = Upload(filename: Option<string>, content: seq<byte>)

  /** The foreign libraries, as functions of the uploaded bytes. */
  datatype Oracles = Oracles(
    /** libmagic's MIME type for the bytes, or `None` when it raises. */
    sniff: seq<byte> -> Option<string>,
    /** Whether the image library opens and verifies the bytes without raising. */
    decodes: seq<byte> -> bool,
    /** `str(round(size / 2**20, 2))`, a floating-point rendering. */
    megabytes: nat -> string)

  /** Why an upload was rejected. */
  datatype Rejection =
    | NoFile
    | TooLarge(filename: string, size: nat)
    | Empty(filename: string)
    | TypeNotAllowed(filename: string, mime: string)
    | TypeUnknown(filename: string)
    | Corrupt(filename: string)

  /** Size bounds: strictly more than the ceiling is too large; zero bytes is empty. */
  function ValidateFileSize(content: seq<byte>, filename: string, s: Settings): (r: Outcome<Rejection>)
    ensures r == Pass <==> 0 < |content| <= MaxUploadBytes(s)
    ensures |content| > MaxUploadBytes(s) ==> r == Fail(TooLarge(filename, |content|))
    ensures |content| <= MaxUploadBytes(s) && |content| == 0 ==> r == Fail(Empty(filename))
  {
    if |content| > MaxUploadBytes(s) then Fail(TooLarge(filename, |content|))
    else if |content| == 0 then Fail(Empty(filename))
    else Pass
  }

  /** The sniffed MIME type, which must be in the allow-list; a sniffer failure is a rejection too. */
  function ValidateFileType(content: seq<byte>, filename: string, s: Settings, o: Oracles): (r: Result<string, Rejection>)
    ensures r.Success? <==> o.sniff(content).Some? && o.sniff(content).value in AllowedMimeTypes(s)
    ensures r.Success? ==> r.value == o.sniff(content).value
    ensures o.sniff(content).None? ==> r == Failure(TypeUnknown(filename))
    ensures o.sniff(content).Some? && o.sniff(content).value !in AllowedMimeTypes(s) ==>
      r == Failure(TypeNotAllowed(filename, o.sniff(content).value))
  {
    match o.sniff(content)
    case None => Failure(TypeUnknown(filename))
    case Some(mime) =>
      if mime !in AllowedMimeTypes(s) then Failure(TypeNotAllowed(filename, mime)) else Success(mime)
  }

  /** The bytes must decode as an image. */
  function ValidateImageContent(content: seq<byte>, filename: string, o: Oracles): (r: Outcome<Rejection>)
    ensures r == Pass <==> o.decodes(content)
    ensures r != Pass ==> r == Fail(Corrupt(filename))
  {
    if o.decodes(content) then Pass else Fail(Corrupt(filename))
  }

  /** The file name is present and the size is within bounds: the checks
      that look neither at the type nor at the image. */
  predicate NameAndSizePass(u: Upload, s: Settings) {
    && u.filename.Some? && u.filename.value != []
    && 0 < |u.content| <= MaxUploadBytes(s)
  }

  /** Every check passes for this upload. */
  predicate Acceptable(u: Upload, s: Settings, o: Oracles) {
    && NameAndSizePass(u, s)
    && o.sniff(u.content).Some? && o.sniff(u.content).value in AllowedMimeTypes(s)
    && o.decodes(u.content)
  }

  /** The content and its sniffed MIME type, or the first check that failed. */
  function ProcessUploadFile(u: Upload, s: Settings, o: Oracles): (r: Result<(seq<byte>, string), Rejection>)
    ensures r.Success? <==> Acceptable(u, s, o)
    ensures r.Success? ==> r.value == (u.content, o.sniff(u.content).value) && r.value.1 in AllowedMimeTypes(s)
  {
    if u.filename.None? || u.filename.value == [] then Failure(NoFile)
    else
      var name := u.filename.value;
      match ValidateFileSize(u.content, name, s)
      case Fail(why) => Failure(why)
      case Pass =>
        match ValidateFileType(u.content, name, s, o)
        case Failure(why) => Failure(why)
        case Success(mime) =>
          match ValidateImageContent(u.content, name, o)
          case Fail(why) => Failure(why)
          case Pass => Success((u.content, mime))
  }

  /** Standard base64 of the image bytes. */
  function EncodeImageToBase64(content: seq<byte>): (text: string)
    ensures Base64.Decode(text) == Some(content)
    ensures |text| == 4 * ((|content| + 2) / 3)
  {
    Base64.DecodeEncode(content);
    Base64.Encode(content)
  }

  /** The whole pipeline: the base64 text and the MIME type, or the first rejection. */
  function ValidateAndEncodeImage(u: Upload, s: Settings, o: Oracles): (r: Result<(string, string), Rejection>)
    ensures r.Success? <==> Acceptable(u, s, o)
    ensures r.Success? ==> r.value == (Base64.Encode(u.content), o.sniff(u.content).value)
    ensures r.Failure? ==> r == Failure(ProcessUploadFile(u, s, o).error)
    ensures NameAndSizePass(u, s) && o.sniff(u.content).None? ==> r == Failure(TypeUnknown(u.filename.value))
    ensures NameAndSizePass(u, s) && o.sniff(u.content).Some? && o.sniff(u.content).value !in AllowedMimeTypes(s) ==>
      r == Failure(TypeNotAllowed(u.filename.value, o.sniff(u.content).value))
    ensures (&& NameAndSizePass(u, s) && o.sniff(u.content).Some? && o.sniff(u.content).value in AllowedMimeTypes(s)
             && !o.decodes(u.content)) ==> r == Failure(Corrupt(u.filename.value))
  {
    match ProcessUploadFile(u, s, o)
    case Failure(why) => Failure(why)
    case Success((content, mime)) => Success((EncodeImageToBase64(content), mime))
  }

  /** The detail text of the raised validation error. */
  function Detail(r: Rejection, s: Settings, o: Oracles): string {
    match r
    case NoFile => "No file provided"
    case TooLarge(f, size) =>
      "File '" + f + "' is too large (" + o.megabytes(size) + "MB). Maximum size: " + IntToString(s.maxUploadMb) + "MB"
    case Empty(f) => "File '" + f + "' is empty"
    case TypeNotAllowed(_, mime) =>
      "File type '" + mime + "' not allowed. Supported types: " + Join(AllowedMimeTypes(s), ", ")
    case TypeUnknown(f) => "Unable to determine file type for '" + f + "'"
    case Corrupt(f) => "File '" + f + "' is not a valid image or is corrupted"
  }

  /** Each message names what was wrong: the file name, or for a type
      rejection the sniffed type together with the allowed types. */
  lemma DetailNamesCause(r: Rejection, s: Settings, o: Oracles)
    ensures r.NoFile? ==> Detail(r, s, o) == "No file provided"
    ensures r.TypeNotAllowed? ==>
      Contains(Detail(r, s, o), r.mime) && Contains(Detail(r, s, o), Join(AllowedMimeTypes(s), ", "))
    ensures !r.NoFile? && !r.TypeNotAllowed? ==> Contains(Detail(r, s, o), r.filename)
  {
    match r
    case NoFile =>
    case TooLarge(f, size) =>
      TooLargeNamesFile(f, o.megabytes(size), IntToString(s.maxUploadMb));
    case Empty(f) =>
      ContainsInside("File '", f, "' is empty");
    case TypeNotAllowed(_, mime) =>
      NotAllowedNamesTypes(mime, Join(AllowedMimeTypes(s), ", "));
    case TypeUnknown(f) =>
      ContainsInside("Unable to determine file type for '", f, "'");
    case Corrupt(f) =>
      ContainsInside("File '", f, "' is not a valid image or is corrupted");
  }

  lemma TooLargeNamesFile(f: string, size: string, max: string)
    ensures Contains("File '" + f + "' is too large (" + size + "MB). Maximum size: " + max + "MB", f)
  {
    var rest := "' is too large (" + size + "MB). Maximum size: " + max + "MB";
    assert "File '" + f + "' is too large (" + size + "MB). Maximum size: " + max + "MB" == "File '" + f + rest;
    ContainsInside("File '", f, rest);
  }

  lemma NotAllowedNamesTypes(mime: string, allowed: string)
    ensures var d := "File type '" + mime + "' not allowed. Supported types: " + allowed;
      Contains(d, mime) && Contains(d, allowed)
  {
    var rest := "' not allowed. Supported types: " + allowed;
    assert "File type '" + mime + "' not allowed. Supported types: " + allowed == "File type '" + mime + rest;
    ContainsInside("File type '", mime, rest);
    var head := "File type '" + mime + "' not allowed. Supported types: ";
    assert head + allowed == head + allowed + [];
    ContainsInside(head, allowed, []);
  }

  /** The exception a rejection raises: an image validation error, status 400. */
  function RejectionError(r: Rejection, s: Settings, o: Oracles): (e: Exception)
    ensures e.HttpException? && e.imageValidation && e.statusCode == 400
  {
    ImageValidationError(Detail(r, s, o))
  }

  /** A missing or empty file name is rejected first, whatever the bytes and the libraries say. */
  lemma MissingFilenameFirst(u: Upload, s: Settings, o: Oracles)
    requires u.filename.None? || u.filename == Some([])
    ensures ValidateAndEncodeImage(u, s, o) == Failure(NoFile)
  {
  }

  /** An oversized upload is rejected for its size, whatever its bytes and whatever the libraries would say. */
  lemma OversizedRejected(u: Upload, s: Settings, o: Oracles)
    requires u.filename.Some? && u.filename.value != []
    requires |u.content| > MaxUploadBytes(s)
    ensures ValidateAndEncodeImage(u, s, o) == Failure(TooLarge(u.filename.value, |u.content|))
  {
  }

  /** The ceiling itself is allowed: an upload of exactly the maximum size passes the size check. */
  lemma ExactMaximumAccepted(u: Upload, s: Settings, o: Oracles)
    requires u.filename.Some? && u.filename.value != []
    requires |u.content| == MaxUploadBytes(s) > 0
    requires o.sniff(u.content).Some? && o.sniff(u.content).value in AllowedMimeTypes(s)
    requires o.decodes(u.content)
    ensures ValidateAndEncodeImage(u, s, o) == Success((Base64.Encode(u.content), o.sniff(u.content).value))
  {
  }

  /** Zero bytes are rejected as empty whenever the ceiling is not negative. */
  lemma EmptyRejected(u: Upload, s: Settings, o: Oracles)
    requires u.filename.Some? && u.filename.value != []
    requires u.content == [] && s.maxUploadMb >= 0
    ensures ValidateAndEncodeImage(u, s, o) == Failure(Empty(u.filename.value))
  {
  }

  /** The checks run in order: a type rejection implies the size checks passed,
      and a decoding rejection implies the size and type checks passed. */
  lemma ChecksInOrder(u: Upload, s: Settings, o: Oracles)
    ensures var r := ValidateAndEncodeImage(u, s, o);
      && (r.Failure? && (r.error.TypeNotAllowed? || r.error.TypeUnknown?) ==>
            0 < |u.content| <= MaxUploadBytes(s))
      && (r.Failure? && r.error.TypeNotAllowed? ==> o.sniff(u.content) == Some(r.error.mime))
      && (r.Failure? && r.error.Corrupt? ==>
            && 0 < |u.content| <= MaxUploadBytes(s)
            && o.sniff(u.content).Some? && o.sniff(u.content).value in AllowedMimeTypes(s)
            && !o.decodes(u.content))
  {
  }

  /** Whatever is returned can be decoded back to exactly the uploaded bytes, and its type is allowed. */
  lemma AcceptedRoundTrip(u: Upload, s: Settings, o: Oracles)
    requires Acceptable(u, s, o)
    ensures Base64.Decode(ValidateAndEncodeImage(u, s, o).value.0) == Some(u.content)
    ensures ValidateAndEncodeImage(u, s, o).value.1 in AllowedMimeTypes(s)
  {
    Base64.DecodeEncode(u.content);
  }
}

=== FILE: json.dfy ===
/**
 JSON values as the inference engine and the HTTP clients send them, with
 Python's truthiness and `dict.get` with a default. Floating-point numbers
 are not represented.
 */
module Json {

  datatype Value =
    | JNull
    | JBool(b: bool)
    | JInt(n: int)
    | JStr(s: string)
    | JArr(items: seq<Value>)
    | JObj(fields: map<string, Value>)

  /** Python's `bool(v)` for the decoded value. */
  predicate Truthy(v: Value) {
    match v
    case JNull => false
    case JBool(b) => b
    case JInt(n) => n != 0
    case JStr(s) => s != []
    case JArr(items) => items != []
    case JObj(fields) => fields != map[]
  }

  /** Python's `d.get(key, default)` on a decoded object. */
  function Get(fields: map<string, Value>, key: string, default: Value): Value {
    if key in fields then fields[key] else default
  }
}

=== FILE: model_utils.dfy ===
/**
 The supported-model list: one model name per line of a text file, with
 blank lines and '#' comments skipped, and a fixed list when the file does
 not exist. File access is replaced by its result: whether the file exists
 and the lines it holds.
 */
module ModelUtils {
  import opened Text

  const DefaultModels: seq<string> := ["moondream:1.8b", "llava:latest", "llama3.2-vision:latest"]
  const FallbackModel := "moondream:1.8b"

  /** A stripped line is kept when it is neither blank nor a comment. */
  predicate IsEntry(line: string) {
    line != [] && line[0] != '#'
  }

  /** The stripped lines that are entries, in file order. */
  function ParseLines(lines: seq<string>): (models: seq<string>)
    ensures |models| <= |lines|
    ensures forall k :: 0 <= k < |models| ==> IsEntry(models[k])
  {
    if lines == [] then []
    else
      var line := Strip(lines[0]);
      if IsEntry(line) then [line] + ParseLines(lines[1..]) else ParseLines(lines[1..])
  }

  /** The supported models: the file's entries, or the fixed list when there is no file. */
  function ReadModelsFromFile(fileExists: bool, lines: seq<string>): (models: seq<string>)
    ensures !fileExists ==> models == DefaultModels
    ensures fileExists ==> forall k :: 0 <= k < |models| ==> IsEntry(models[k])
    ensures fileExists ==> models == ParseLines(lines)
  {
    if !fileExists then DefaultModels else ParseLines(lines)
  }

  /** The first supported model, or the fallback name when there is none. */
  function GetDefaultModel(fileExists: bool, lines: seq<string>): (name: string)
    ensures var models := ReadModelsFromFile(fileExists, lines);
      (models != [] ==> name == models[0]) && (models == [] ==> name == FallbackModel)
  {
    var models := ReadModelsFromFile(fileExists, lines);
    if models != [] then models[0] else FallbackModel
  }

  /** Membership in the supported list. */
  predicate IsSupportedModel(name: string, fileExists: bool, lines: seq<string>) {
    name in ReadModelsFromFile(fileExists, lines)
  }

  /** The file is filtered line by line: the entries of two consecutive
      stretches of lines are those of each, in order. With ParseLinesOne this
      pins the list down: every entry line is kept, once per occurrence. */
  lemma ParseLinesAppend(a: seq<string>, b: seq<string>)
    ensures ParseLines(a + b) == ParseLines(a) + ParseLines(b)
  {
    ParseLinesStep();
    ConcatMapAppend(ParseLines, EntryOf, a, b);
  }

  /** The filter is the concatenation of what each line contributes. */
  lemma ParseLinesStep()
    ensures forall x, rest :: ParseLines([x] + rest) == EntryOf(x) + ParseLines(rest)
  {
    forall x, rest ensures ParseLines([x] + rest) == EntryOf(x) + ParseLines(rest) {
      assert ([x] + rest)[1..] == rest;
    }
  }

  /** What one line contributes to the list. */
  function EntryOf(line: string): seq<string> {
    if IsEntry(Strip(line)) then [Strip(line)] else []
  }

  /** A single line contributes its stripped form exactly when that is an entry. */
  lemma ParseLinesOne(line: string)
    ensures ParseLines([line]) == (if IsEntry(Strip(line)) then [Strip(line)] else [])
  {
    assert [line][1..] == [];
  }

  /** A name is supported exactly when it is an entry of the file, or, when
      there is no file, one of the fixed names. */
  lemma IsSupportedModelSpec(name: string, fileExists: bool, lines: seq<string>)
    ensures fileExists ==>
      (IsSupportedModel(name, fileExists, lines) <==> IsEntry(name) && exists k :: 0 <= k < |lines| && Strip(lines[k]) == name)
    ensures !fileExists ==> (IsSupportedModel(name, fileExists, lines) <==> name in DefaultModels)
  {
    ParseLinesMembership(lines, name);
  }

  /** A name is an entry of the file exactly when some line strips to it and it is neither blank nor a comment. */
  lemma ParseLinesMembership(lines: seq<string>, name: string)
    ensures name in ParseLines(lines) <==> IsEntry(name) && exists k :: 0 <= k < |lines| && Strip(lines[k]) == name
  {
    if name in ParseLines(lines) {
      ParseLinesSound(lines, name);
    }
    if IsEntry(name) && exists k :: 0 <= k < |lines| && Strip(lines[k]) == name {
      var k :| 0 <= k < |lines| && Strip(lines[k]) == name;
      ParseLinesComplete(lines, k);
    }
  }

  /** Every entry is the stripped form of some line. */
  lemma {:induction false} ParseLinesSound(lines: seq<string>, name: string)
    requires name in ParseLines(lines)
    ensures exists k :: 0 <= k < |lines| && Strip(lines[k]) == name
  {
    if IsEntry(Strip(lines[0])) && name == Strip(lines[0]) {
      assert Strip(lines[0]) == name;
    } else {
      ParseLinesSound(lines[1..], name);
      var k :| 0 <= k < |lines[1..]| && Strip(lines[1..][k]) == name;
      assert Strip(lines[k + 1]) == name;
    }
  }

  /** Every line whose stripped form is an entry is listed. */
  lemma ParseLinesComplete(lines: seq<string>, k: nat)
    requires k < |lines| && IsEntry(Strip(lines[k]))
    ensures Strip(lines[k]) in ParseLines(lines)
  {
    ParseLinesStep();
    ConcatMapHas(ParseLines, EntryOf, lines, k, Strip(lines[k]));
  }

  /** The entries are already stripped. */
  lemma {:induction false} ParseLinesStripped(lines: seq<string>)
    ensures forall k :: 0 <= k < |ParseLines(lines)| ==> Strip(ParseLines(lines)[k]) == ParseLines(lines)[k]
  {
    if lines != [] {
      ParseLinesStripped(lines[1..]);
      StripIdempotent(lines[0]);
    }
  }

  /** The entries keep file order: they are obtained from the stripped lines by deletion. */
  lemma {:induction false} ParseLinesOrder(lines: seq<string>)
    ensures Subseq(ParseLines(lines), StrippedLines(lines))
  {
    if lines != [] {
      ParseLinesOrder(lines[1..]);
      assert StrippedLines(lines) == [Strip(lines[0])] + StrippedLines(lines[1..]);
      var rest := ParseLines(lines[1..]);
      if IsEntry(Strip(lines[0])) {
        SubseqCons(Strip(lines[0]), rest, StrippedLines(lines[1..]));
      } else {
        assert StrippedLines(lines)[1..] == StrippedLines(lines[1..]);
      }
    }
  }

  function StrippedLines(lines: seq<string>): seq<string> {
    if lines == [] then [] else [Strip(lines[0])] + StrippedLines(lines[1..])
  }

  /** The default model is supported whenever the list is not empty; otherwise
      the fallback name is returned although it is not in the (empty) list. */
  lemma DefaultModelSupported(fileExists: bool, lines: seq<string>)
    ensures ReadModelsFromFile(fileExists, lines) != [] ==> IsSupportedModel(GetDefaultModel(fileExists, lines), fileExists, lines)
    ensures ReadModelsFromFile(fileExists, lines) == [] ==>
      GetDefaultModel(fileExists, lines) == FallbackModel && !IsSupportedModel(FallbackModel, fileExists, lines)
  {
  }

  /** Without a file the default model is the first of the fixed list. */
  lemma NoFileDefault(lines: seq<string>)
    ensures GetDefaultModel(false, lines) == "moondream:1.8b"
    ensures IsSupportedModel("llava:latest", false, lines)
  {
  }
}

=== FILE: ollama_client.dfy ===
/**
 The client of the inference engine: how one HTTP exchange is classified,
 how the two reply shapes are parsed, the one-shot fallback from the chat
 endpoint to the generate endpoint, and the health probe.

 The network is not modelled: each exchange enters as a `Reply`, the
 outcome the transport produced. Prompts and request payloads are fixed data
 and are reduced to the endpoint and the image sent.
 */
module OllamaClient {
  import opened Common
  import opened Text
  import opened Json
  import opened Schemas
  import opened Errors
  import opened Cleaning

  /** What one POST to the engine produced. `body` is the decoded JSON body,
      `None` when the body is not JSON. */
  datatype Reply =
    | TimedOut
    | ConnectFailed
      /** Any other transport failure (a read error, a protocol error). */
    | TransportFailed
    | Answer(status: nat, text: string, body: Option<Value>)

  /** The classified result of one exchange: a JSON body, the signal that
      the endpoint does not exist, or a raised exception. */
  datatype RequestOutcome =
    | Answered(body: Value)
    | EndpointMissing
    | Failed(error: Exception)

  /** The two inference endpoints. */
  datatype Api = Chat | Generate

  /** One request sent to the engine: the endpoint and the base64 image in it. */
  datatype Call = Call(api: Api, image: string)

  predicate IsSuccessStatus(status: nat) {
    200 <= status < 300
  }

  /** The message of the error raised when both endpoints failed. */
  function BothFailedMessage(model: string): string {
    "Both /api/chat and /api/generate endpoints failed. Make sure Ollama is running and the model '"
    + model + "' is available."
  }

  /** One exchange with the engine, classified. A 404 whose text mentions
      "model" in any case is a missing model; any other 404 is the fallback
      signal; timeouts and refused connections are engine errors; any other
      unsuccessful status is a connection error quoting status and text; a
      successful reply must carry JSON. Other transport failures escape as
      they are. */
  function MakeRequest(reply: Reply, model: string): (o: RequestOutcome)
    ensures o.EndpointMissing? <==> reply.Answer? && reply.status == 404 && !Contains(Lower(reply.text), "model")
    ensures (reply.Answer? && reply.status == 404 && Contains(Lower(reply.text), "model"))
              ==> o == Failed(ModelError(model))
    ensures reply.TimedOut? ==> o == Failed(TimeoutError())
    ensures reply.ConnectFailed? ==> o == Failed(ConnectionError(DefaultConnectionMessage))
    ensures (reply.Answer? && reply.status != 404 && !IsSuccessStatus(reply.status))
              ==> o == Failed(ConnectionError("Ollama returned HTTP " + NatToString(reply.status) + ": " + reply.text))
    ensures o.Answered? <==> reply.Answer? && IsSuccessStatus(reply.status) && reply.body.Some?
    ensures o.Answered? ==> o.body == reply.body.value
    ensures o.Failed? && !o.error.OllamaError? ==> o.error.OtherException?
    ensures reply.TransportFailed? ==> o.Failed? && o.error.OtherException?
    ensures reply.Answer? && IsSuccessStatus(reply.status) && reply.body.None? ==> o.Failed? && o.error.OtherException?
  {
    match reply
    case TimedOut => Failed(TimeoutError())
    case ConnectFailed => Failed(ConnectionError(DefaultConnectionMessage))
    case TransportFailed => Failed(OtherException("transport error"))
    case Answer(status, text, body) =>
      if status == 404 then
        if Contains(Lower(text), "model") then Failed(ModelError(model)) else EndpointMissing
      else if !IsSuccessStatus(status) then
        Failed(ConnectionError("Ollama returned HTTP " + NatToString(status) + ": " + text))
      else if body.None? then Failed(OtherException("invalid JSON body"))
      else Answered(body.value)
  }

  /** The exception raised when a value lacks the attribute or type asked of it. */
  const Malformed := OtherException("malformed reply")

  /** Python's `response.get(key, default)`: the reply must be an object. */
  function Field(v: Value, key: string, default: Value): (r: Result<Value, Exception>)
    ensures r.Success? <==> v.JObj?
    ensures r.Success? ==> r.value == (if key in v.fields then v.fields[key] else default)
  {
    if v.JObj? then Success(Get(v.fields, key, default)) else Failure(Malformed)
  }

  /** The raw text of a reply: `message.content` for chat, `response` for
      generate, the empty string when absent. */
  function RawText(body: Value, api: Api): (r: Result<Value, Exception>)
    ensures r.Success? <==> body.JObj? && (api == Chat ==> Get(body.fields, "message", JObj(map[])).JObj?)
    ensures r.Success? && api == Chat ==>
      r.value == Get(Get(body.fields, "message", JObj(map[])).fields, "content", JStr(""))
    ensures r.Success? && api == Generate ==> r.value == Get(body.fields, "response", JStr(""))
  {
    if api == Chat then
      match Field(body, "message", JObj(map[]))
      case Failure(e) => Failure(e)
      case Success(message) => Field(message, "content", JStr(""))
    else Field(body, "response", JStr(""))
  }

  /** `_clean_extracted_text` on any JSON value: a falsy value gives the
      empty string, a string is cleaned, anything else cannot be stripped. */
  function CleanValue(raw: Value): (r: Result<string, Exception>)
    ensures r.Failure? <==> Truthy(raw) && !raw.JStr?
    ensures raw.JStr? ==> r == Success(CleanExtractedText(raw.s))
    ensures !Truthy(raw) ==> r == Success([])
  {
    if !Truthy(raw) then Success([])
    else if raw.JStr? then Success(CleanExtractedText(raw.s))
    else Failure(Malformed)
  }

  /** One token counter: 0 when absent, and it must be an integer when present. */
  function Counter(fields: map<string, Value>, key: string): (r: Result<int, Exception>)
    ensures key !in fields ==> r == Success(0)
    ensures key in fields ==> (r.Success? <==> fields[key].JInt?)
    ensures key in fields && fields[key].JInt? ==> r.value == fields[key].n
  {
    if key !in fields then Success(0)
    else if fields[key].JInt? then Success(fields[key].n)
    else Failure(OtherException("token counter is not an integer"))
  }

  /** The usage record: none when the usage data is falsy; otherwise it must
      be an object and each counter defaults to 0. */
  function ParseUsage(data: Value): (r: Result<Option<TokenUsage>, Exception>)
    ensures r.Success? && r.value.None? <==> !Truthy(data)
    ensures r.Success? && r.value.Some? ==>
      data.JObj?
      && Counter(data.fields, "prompt_tokens") == Success(r.value.value.promptTokens)
      && Counter(data.fields, "completion_tokens") == Success(r.value.value.completionTokens)
      && Counter(data.fields, "total_tokens") == Success(r.value.value.totalTokens)
    ensures r.Failure? <==>
      Truthy(data)
      && (|| !data.JObj?
          || Counter(data.fields, "prompt_tokens").Failure?
          || Counter(data.fields, "completion_tokens").Failure?
          || Counter(data.fields, "total_tokens").Failure?)
  {
    if !Truthy(data) then Success(None)
    else if !data.JObj? then Failure(Malformed)
    else
      match (Counter(data.fields, "prompt_tokens"), Counter(data.fields, "completion_tokens"),
             Counter(data.fields, "total_tokens"))
      case (Success(p), Success(c), Success(t)) => Success(Some(TokenUsage(p, c, t)))
      case _ => Failure(OtherException("token counter is not an integer"))
  }

  /** The cleaned text of a reply. */
  function ResponseText(body: Value, api: Api): (r: Result<string, Exception>)
    ensures r.Success? <==> RawText(body, api).Success? && CleanValue(RawText(body, api).value).Success?
    ensures r.Success? ==> CleanValue(RawText(body, api).value) == Success(r.value)
  {
    match RawText(body, api)
    case Failure(e) => Failure(e)
    case Success(raw) => CleanValue(raw)
  }

  /** The usage record of a reply; the usage data defaults to an empty object. */
  function ResponseUsage(body: Value): (r: Result<Option<TokenUsage>, Exception>)
    ensures r.Success? ==> body.JObj? && ParseUsage(Get(body.fields, "usage", JObj(map[]))) == r
  {
    match Field(body, "usage", JObj(map[]))
    case Failure(e) => Failure(e)
    case Success(data) => ParseUsage(data)
  }

  /** `_parse_response`: the cleaned text, the client's model and the usage
      record, or the exception the reply's shape provokes. */
  function ParseResponse(body: Value, api: Api, model: string): (r: Result<ExtractTextResponse, Exception>)
    ensures r.Success? ==> r.value.model == model
    ensures r.Failure? ==> r.error.OtherException?
  {
    match ResponseText(body, api)
    case Failure(e) => Failure(e)
    case Success(text) =>
      match ResponseUsage(body)
      case Failure(e) => Failure(e)
      case Success(usage) => Success(ExtractTextResponse(text, model, usage))
  }

  /** `extract_text_from_image`: ask the chat endpoint; only when it does not
      exist ask the generate endpoint, once, and turn any failure there into
      a connection error. Also returns the requests sent, in order. */
  function ExtractTextFromImage(image: string, model: string, chat: Reply, generate: Reply)
    : (res: (Result<ExtractTextResponse, Exception>, seq<Call>))
    ensures var (r, calls) := res;
      && 1 <= |calls| <= 2
      && calls[0] == Call(Chat, image)
      && (|calls| == 2 <==> MakeRequest(chat, model).EndpointMissing?)
      && (|calls| == 2 ==> calls[1] == Call(Generate, image))
    ensures var (r, calls) := res;
      && (r.Success? ==> r.value.model == model)
      && (r.Failure? ==> r.error.OllamaError? || r.error.OtherException?)
  {
    match MakeRequest(chat, model)
    case Answered(body) => (ParseResponse(body, Chat, model), [Call(Chat, image)])
    case Failed(e) => (Failure(e), [Call(Chat, image)])
    case EndpointMissing => (Fallback(MakeRequest(generate, model), model), [Call(Chat, image), Call(Generate, image)])
  }

  /** The generate attempt made after the chat endpoint turned out to be
      missing: its parsed reply, or else the fixed connection error. */
  function Fallback(g: RequestOutcome, model: string): (r: Result<ExtractTextResponse, Exception>)
    ensures r.Failure? ==> r.error.OllamaError?
  {
    var parsed :=
      match g
      case Answered(body) => ParseResponse(body, Generate, model)
      case _ => Failure(Malformed);
    if parsed.Success? then parsed else Failure(ConnectionError(BothFailedMessage(model)))
  }

  /** What a GET of the engine's model listing produced. */
  datatype TagsReply = TagsUnreachable | TagsAnswer(status: nat, body: Option<Value>)

  /** `health_check`: the listing answers with status 200; every failure is `false`. */
  predicate HealthCheck(reply: TagsReply) {
    reply.TagsAnswer? && reply.status == 200
  }

  // ---------------------------------------------------------------------------
  // Properties of the classification and of the fallback.

  /** Every failure of an exchange is an engine error of the connection,
      timeout or model kind (statuses 503 and 504), or an unexpected exception. */
  lemma RequestFailureKinds(reply: Reply, model: string)
    requires MakeRequest(reply, model).Failed?
    ensures var e := MakeRequest(reply, model).error;
      (e.OllamaError? && e.kind != Base && (e.statusCode == 503 || e.statusCode == 504))
      || e.OtherException?
  {
  }

  /** A chat success never reaches the generate endpoint, and its result is
      the chat reply parsed. */
  lemma ChatSuccessNoFallback(image: string, model: string, chat: Reply, generate: Reply)
    requires chat.Answer? && IsSuccessStatus(chat.status) && chat.body.Some?
    ensures ExtractTextFromImage(image, model, chat, generate)
         == (ParseResponse(chat.body.value, Chat, model), [Call(Chat, image)])
  {
  }

  /** A missing model, a timeout or a refused connection on the chat endpoint
      propagates as it is, without trying the generate endpoint. */
  lemma ChatErrorsPropagate(image: string, model: string, chat: Reply, generate: Reply)
    requires MakeRequest(chat, model).Failed?
    ensures ExtractTextFromImage(image, model, chat, generate)
         == (Failure(MakeRequest(chat, model).error), [Call(Chat, image)])
  {
  }

  /** After the fallback, success means the generate endpoint answered and
      its reply parsed; any other outcome is the fixed connection error. */
  lemma FallbackOutcome(image: string, model: string, chat: Reply, generate: Reply)
    requires MakeRequest(chat, model).EndpointMissing?
    ensures var r := ExtractTextFromImage(image, model, chat, generate).0;
      && (r.Success? <==> MakeRequest(generate, model).Answered?
                          && ParseResponse(MakeRequest(generate, model).body, Generate, model).Success?)
      && (r.Success? ==> r == ParseResponse(MakeRequest(generate, model).body, Generate, model))
      && (r.Failure? ==> r.error == ConnectionError(BothFailedMessage(model)))
  {
    var g := MakeRequest(generate, model);
    assert ExtractTextFromImage(image, model, chat, generate).0 == Fallback(g, model);
    FallbackSpec(g, model);
  }

  /** The generate attempt succeeds exactly when it was answered and the
      answer parses; every other outcome is the fixed connection error. */
  lemma FallbackSpec(g: RequestOutcome, model: string)
    ensures var r := Fallback(g, model);
      && (r.Success? <==> g.Answered? && ParseResponse(g.body, Generate, model).Success?)
      && (r.Success? ==> r == ParseResponse(g.body, Generate, model))
      && (r.Failure? ==> r.error == ConnectionError(BothFailedMessage(model)))
  {
    var failed := Failure(ConnectionError(BothFailedMessage(model)));
    if g.Answered? {
      var parsed := ParseResponse(g.body, Generate, model);
      if parsed.Success? {
        assert Fallback(g, model) == parsed;
      } else {
        assert Fallback(g, model) == failed;
      }
    } else {
      assert Fallback(g, model) == failed;
    }
  }

  /** Even a missing model or a timeout on the generate endpoint becomes the
      fixed connection error (status 503). */
  lemma FallbackMasksErrors(image: string, model: string, chat: Reply, generate: Reply)
    requires MakeRequest(chat, model).EndpointMissing?
    requires MakeRequest(generate, model).Failed?
    ensures ExtractTextFromImage(image, model, chat, generate).0 == Failure(ConnectionError(BothFailedMessage(model)))
    ensures CreateErrorResponse(ExtractTextFromImage(image, model, chat, generate).0.error).code == 503
  {
    var e := ConnectionError(BothFailedMessage(model));
    assert Fallback(MakeRequest(generate, model), model) == Failure(e);
    assert ExtractTextFromImage(image, model, chat, generate).0 == Failure(e);
    assert CreateErrorResponse(e).code == 503;
  }

  // ---------------------------------------------------------------------------
  // Properties of parsing.

  /** A chat reply whose message carries text content yields exactly the
      cleaned content and the client's model, with the usage read from the
      reply's `usage` field; the reply is rejected exactly when that usage
      data cannot be read. */
  lemma ChatReplyParsed(fields: map<string, Value>, content: string, model: string)
    requires "message" in fields && fields["message"].JObj?
    requires "content" in fields["message"].fields && fields["message"].fields["content"] == JStr(content)
    ensures var r := ParseResponse(JObj(fields), Chat, model);
      var usage := ParseUsage(Get(fields, "usage", JObj(map[])));
      && (r.Success? <==> usage.Success?)
      && (r.Success? ==> r.value == ExtractTextResponse(CleanExtractedText(content), model, usage.value))
  {
    assert RawText(JObj(fields), Chat) == Success(JStr(content));
    TextThenUsage(fields, Chat, CleanExtractedText(content), model);
  }

  /** A generate reply carrying text in `response` yields exactly the cleaned
      text, with the usage read from the reply's `usage` field. */
  lemma GenerateReplyParsed(fields: map<string, Value>, text: string, model: string)
    requires "response" in fields && fields["response"] == JStr(text)
    ensures var r := ParseResponse(JObj(fields), Generate, model);
      var usage := ParseUsage(Get(fields, "usage", JObj(map[])));
      && (r.Success? <==> usage.Success?)
      && (r.Success? ==> r.value == ExtractTextResponse(CleanExtractedText(text), model, usage.value))
  {
    assert RawText(JObj(fields), Generate) == Success(JStr(text));
    TextThenUsage(fields, Generate, CleanExtractedText(text), model);
  }

  /** A missing or falsy text field gives the empty text, with the usage read
      from the reply's `usage` field. For chat the text field is the
      message's `content`, and a missing message counts as an empty one. */
  lemma AbsentTextIsEmpty(fields: map<string, Value>, api: Api, model: string)
    requires api == Chat ==>
      || "message" !in fields
      || (fields["message"].JObj? && ("content" !in fields["message"].fields || !Truthy(fields["message"].fields["content"])))
    requires api == Generate ==> "response" !in fields || !Truthy(fields["response"])
    ensures var r := ParseResponse(JObj(fields), api, model);
      var usage := ParseUsage(Get(fields, "usage", JObj(map[])));
      && (r.Success? <==> usage.Success?)
      && (r.Success? ==> r.value == ExtractTextResponse([], model, usage.value))
  {
    assert ResponseText(JObj(fields), api) == Success([]);
    TextThenUsage(fields, api, [], model);
  }

  /** Once the text of an object reply is known, the reply stands or falls with its usage data. */
  lemma TextThenUsage(fields: map<string, Value>, api: Api, text: string, model: string)
    requires ResponseText(JObj(fields), api) == Success(text)
    ensures var r := ParseResponse(JObj(fields), api, model);
      var usage := ParseUsage(Get(fields, "usage", JObj(map[])));
      && (r.Success? <==> usage.Success?)
      && (r.Success? ==> r.value == ExtractTextResponse(text, model, usage.value))
  {
    assert ResponseUsage(JObj(fields)) == ParseUsage(Get(fields, "usage", JObj(map[])));
  }

  /** The shapes `_parse_response` cannot read raise: a reply that is not an
      object, a chat message that is not an object, text that is truthy but
      not a string, and usage data that cannot be read. */
  lemma MalformedReplyRejected(body: Value, api: Api, model: string)
    ensures !body.JObj? ==> ParseResponse(body, api, model).Failure?
    ensures (body.JObj? && api == Chat && "message" in body.fields && !body.fields["message"].JObj?)
              ==> ParseResponse(body, api, model).Failure?
    ensures (&& body.JObj? && api == Chat && "message" in body.fields && body.fields["message"].JObj?
             && "content" in body.fields["message"].fields
             && Truthy(body.fields["message"].fields["content"]) && !body.fields["message"].fields["content"].JStr?) ==>
            ParseResponse(body, api, model).Failure?
    ensures (&& body.JObj? && api == Generate && "response" in body.fields
             && Truthy(body.fields["response"]) && !body.fields["response"].JStr?) ==>
            ParseResponse(body, api, model).Failure?
    ensures (body.JObj? && ParseUsage(Get(body.fields, "usage", JObj(map[]))).Failure?)
              ==> ParseResponse(body, api, model).Failure?
  {
  }

  /** Usage data that is an object yields counters taken from it, each 0
      when absent; an empty object counts as no usage at all. */
  lemma UsageCounters(usage: map<string, Value>)
    requires "prompt_tokens" in usage ==> usage["prompt_tokens"].JInt?
    requires "completion_tokens" in usage ==> usage["completion_tokens"].JInt?
    requires "total_tokens" in usage ==> usage["total_tokens"].JInt?
    ensures usage == map[] ==> ParseUsage(JObj(usage)) == Success(None)
    ensures usage != map[] ==> ParseUsage(JObj(usage)) == Success(Some(TokenUsage(
      if "prompt_tokens" in usage then usage["prompt_tokens"].n else 0,
      if "completion_tokens" in usage then usage["completion_tokens"].n else 0,
      if "total_tokens" in usage then usage["total_tokens"].n else 0)))
  {
  }
}

=== FILE: schemas.dfy ===
/** The response records of the HTTP surface. */
module Schemas {
  import opened Common

  /** Token counters reported by the engine; each defaults to 0. */
  datatype TokenUsage = TokenUsage(promptTokens: int, completionTokens: int, totalTokens: int)

  /** The successful body of the extract-text endpoint. */
  datatype ExtractTextResponse = ExtractTextResponse(text: string, model: string, usage: Option<TokenUsage>)

  /** The standard error body `{error, message, code}`. */
  datatype ErrorResponse = ErrorResponse(error: string, message: string, code: int)
}

=== FILE: text.dfy ===
/**
 String primitives with Python's meaning: `str.isspace`, `str.strip`,
 `str.lower` (restricted to ASCII), `str.startswith`, substring search,
 `str.split` on one separator and `str.join`, and decimal rendering of
 integers. Also the subsequence relation used to say "only deletes".
 */
module Text {

  /** Python's `str.isspace` for a single character: the characters whose
      Unicode bidirectional class is WS, B or S, or whose category is Zs. */
  predicate IsSpace(c: char) {
    || '\t' <= c <= '\r'
    || '\U{1c}' <= c <= ' '
    || c == '\U{85}' || c == '\U{a0}' || c == '\U{1680}'
    || '\U{2000}' <= c <= '\U{200a}'
    || c == '\U{2028}' || c == '\U{2029}' || c == '\U{202f}' || c == '\U{205f}' || c == '\U{3000}'
  }

  predicate AllSpace(s: string) {
    forall i :: 0 <= i < |s| ==> IsSpace(s[i])
  }

  /** Number of whitespace characters at the start of `s`. */
  function LeadingSpace(s: string): (n: nat)
    ensures n <= |s|
  {
    if s == [] || !IsSpace(s[0]) then 0 else 1 + LeadingSpace(s[1..])
  }

  /** `LeadingSpace` counts the maximal whitespace run at the start. */
  lemma {:induction false} LeadingSpaceSpec(s: string)
    ensures AllSpace(s[..LeadingSpace(s)])
    ensures LeadingSpace(s) < |s| ==> !IsSpace(s[LeadingSpace(s)])
  {
    if s != [] && IsSpace(s[0]) {
      LeadingSpaceSpec(s[1..]);
      var n := LeadingSpace(s[1..]);
      assert s[..n + 1] == [s[0]] + s[1..][..n];
    }
  }

  /** Number of whitespace characters at the end of `s`. */
  function TrailingSpace(s: string): (n: nat)
    ensures n <= |s|
  {
    if s == [] || !IsSpace(s[|s| - 1]) then 0 else 1 + TrailingSpace(s[..|s| - 1])
  }

  /** `TrailingSpace` counts the maximal whitespace run at the end. */
  lemma {:induction false} TrailingSpaceSpec(s: string)
    ensures AllSpace(s[|s| - TrailingSpace(s)..])
    ensures TrailingSpace(s) < |s| ==> !IsSpace(s[|s| - TrailingSpace(s) - 1])
  {
    if s != [] && IsSpace(s[|s| - 1]) {
      var s' := s[..|s| - 1];
      TrailingSpaceSpec(s');
      var n := TrailingSpace(s');
      SliceLast(s, |s| - n - 1);
    }
  }

  /** A suffix is the matching suffix of all but the last element, then the last element. */
  lemma SliceLast<T>(s: seq<T>, j: nat)
    requires j < |s|
    ensures s[j..] == s[..|s| - 1][j..] + [s[|s| - 1]]
  {
  }

  /** `r` is `s` with its whitespace border removed, `r` starting at index `i`
      of `s`: a slice of `s`, whitespace on both sides of it, and no whitespace
      at either end of it. */
  predicate IsStripAt(r: string, s: string, i: int) {
    && 0 <= i <= |s| - |r|
    && r == s[i..i + |r|]
    && AllSpace(s[..i])
    && AllSpace(s[i + |r|..])
    && (r == [] || (!IsSpace(r[0]) && !IsSpace(r[|r| - 1])))
  }

  /** Python's `str.strip()` without arguments. */
  function Strip(s: string): (r: string)
    ensures |r| <= |s|
  {
    var i := LeadingSpace(s);
    s[i..|s| - TrailingSpace(s[i..])]
  }

  /** What stripping removes: the maximal whitespace run at the start, and
      the maximal whitespace run at the end of what remains. */
  lemma StripSpec(s: string)
    ensures IsStripAt(Strip(s), s, LeadingSpace(s))
  {
    var i := LeadingSpace(s);
    var n := TrailingSpace(s[i..]);
    StripRuns(s, i, n);
    assert Strip(s) == s[i..|s| - n];
  }

  /** Cutting both maximal whitespace runs leaves a stripped slice. */
  lemma StripRuns(s: string, i: nat, n: nat)
    requires i == LeadingSpace(s) && n == TrailingSpace(s[i..])
    ensures n <= |s| - i && IsStripAt(s[i..|s| - n], s, i)
  {
    LeadingSpaceSpec(s);
    TrailingOfSuffix(s, i, n);
    StripBounds(s, i, n);
  }

  /** The trailing run of a suffix of `s`, read as a run of `s`. */
  lemma TrailingOfSuffix(s: string, i: nat, n: nat)
    requires i <= |s| && n == TrailingSpace(s[i..])
    ensures n <= |s| - i
    ensures AllSpace(s[|s| - n..])
    ensures n < |s| - i ==> !IsSpace(s[|s| - n - 1])
  {
    var t := s[i..];
    TrailingSpaceSpec(t);
    assert t[|t| - n..] == s[|s| - n..];
    if n < |t| {
      assert t[|t| - n - 1] == s[|s| - n - 1];
    }
  }

  lemma StripBounds(s: string, i: nat, n: nat)
    requires i <= |s| && AllSpace(s[..i]) && (i < |s| ==> !IsSpace(s[i]))
    requires n <= |s| - i && AllSpace(s[|s| - n..]) && (n < |s| - i ==> !IsSpace(s[|s| - n - 1]))
    ensures IsStripAt(s[i..|s| - n], s, i)
  {
  }

  /** The first index whose character is not whitespace is where `LeadingSpace` stops. */
  lemma {:induction false} LeadingSpaceAt(s: string, i: nat)
    requires i <= |s| && AllSpace(s[..i])
    requires i == |s| || !IsSpace(s[i])
    ensures LeadingSpace(s) == i
  {
    if i > 0 {
      assert IsSpace(s[..i][0]);
      assert s[1..][..i - 1] == s[..i][1..];
      LeadingSpaceAt(s[1..], i - 1);
    }
  }

  /** The index after the last non-whitespace character is where `TrailingSpace` stops. */
  lemma {:induction false} TrailingSpaceAt(s: string, e: nat)
    requires e <= |s| && AllSpace(s[e..])
    requires e == 0 || !IsSpace(s[e - 1])
    ensures TrailingSpace(s) == |s| - e
  {
    if e < |s| {
      var s' := s[..|s| - 1];
      assert IsSpace(s[e..][|s| - 1 - e]);
      assert s'[e..] == s[e..][..|s| - 1 - e];
      TrailingSpaceAt(s', e);
    }
  }

  /** Stripping has exactly one possible answer: any whitespace-bordered slice
      of `s` without border whitespace is `Strip(s)`. */
  lemma StripUnique(r: string, s: string, i: int)
    requires IsStripAt(r, s, i)
    ensures r == Strip(s)
  {
    if r == [] {
      StripUniqueEmpty(s, i);
    } else {
      StripUniqueNonEmpty(r, s, i);
    }
  }

  lemma StripUniqueEmpty(s: string, i: int)
    requires IsStripAt([], s, i)
    ensures Strip(s) == []
  {
    assert AllSpace(s) by {
      forall k | 0 <= k < |s| ensures IsSpace(s[k]) {
        if k < i { assert s[k] == s[..i][k]; } else { assert s[k] == s[i..][k - i]; }
      }
    }
    assert s[..|s|] == s;
    LeadingSpaceAt(s, |s|);
  }

  lemma StripUniqueNonEmpty(r: string, s: string, i: int)
    requires r != [] && IsStripAt(r, s, i)
    ensures r == Strip(s)
  {
    var r' := Strip(s);
    StripSpec(s);
    assert r[0] == s[i];
    LeadingSpaceAt(s, i);
    assert IsStripAt(r', s, i);
    assert r' != [] by {
      assert s[i] == s[i..][0];
    }
    assert r[|r| - 1] == s[i + |r| - 1];
    assert r'[|r'| - 1] == s[i + |r'| - 1];
    TrailingSpaceAt(s, i + |r|);
    TrailingSpaceAt(s, i + |r'|);
    assert |r| == |r'|;
  }

  /** Whitespace around a text without border whitespace is exactly what
      stripping removes. */
  lemma StripSurrounded(lead: string, r: string, trail: string)
    requires AllSpace(lead) && AllSpace(trail)
    requires r == [] || (!IsSpace(r[0]) && !IsSpace(r[|r| - 1]))
    ensures Strip(lead + r + trail) == r
  {
    var s := lead + r + trail;
    assert s[..|lead|] == lead;
    assert s[|lead|..|lead| + |r|] == r;
    assert s[|lead| + |r|..] == trail;
    StripUnique(r, s, |lead|);
  }

  /** Stripping twice is stripping once. */
  lemma StripIdempotent(s: string)
    ensures Strip(Strip(s)) == Strip(s)
  {
    var r := Strip(s);
    StripSpec(s);
    assert r[0..|r|] == r;
    assert IsStripAt(r, r, 0);
    StripUnique(r, r, 0);
  }

  /** ASCII lowercase of one character; every other character is left alone. */
  function LowerChar(c: char): char {
    if 'A' <= c <= 'Z' then (c as int + 32) as char else c
  }

  /** Python's `str.lower()` restricted to ASCII letters. */
  function Lower(s: string): (r: string)
    ensures |r| == |s|
    ensures forall i :: 0 <= i < |s| ==> r[i] == LowerChar(s[i])
  {
    seq(|s|, i requires 0 <= i < |s| => LowerChar(s[i]))
  }

  /** Lowering works character by character: the middle of a lowered concatenation is the lowered middle. */
  lemma LowerSlice(u: string, w: string, v: string)
    ensures Lower(u + w + v)[|u|..|u| + |w|] == Lower(w)
  {
    var x := u + w + v;
    assert forall i :: 0 <= i < |w| ==> x[|u| + i] == w[i];
  }

  predicate StartsWith<T(==)>(s: seq<T>, p: seq<T>) {
    |p| <= |s| && s[..|p|] == p
  }

  /** Python's `w in s` for strings: `w` occurs somewhere in `s`. */
  predicate Contains(s: string, w: string)
    decreases |s|
  {
    StartsWith(s, w) || (s != [] && Contains(s[1..], w))
  }

  lemma ContainsAt(s: string, w: string, i: nat)
    requires i + |w| <= |s| && s[i..i + |w|] == w
    ensures Contains(s, w)
    decreases i
  {
    if i > 0 {
      assert s[1..][i - 1..i - 1 + |w|] == s[i..i + |w|];
      ContainsAt(s[1..], w, i - 1);
    }
  }

  /** A string contains every piece it is assembled from. */
  lemma ContainsInside(a: string, w: string, b: string)
    ensures Contains(a + w + b, w)
  {
    assert (a + w + b)[|a|..|a| + |w|] == w;
    ContainsAt(a + w + b, w, |a|);
  }

  /** Number of occurrences of `d` in `s`. */
  function Count(s: string, d: char): nat {
    if s == [] then 0 else (if s[0] == d then 1 else 0) + Count(s[1..], d)
  }

  /** Python's `s.split(d)` for a one-character separator `d`. */
  function Split(s: string, d: char): (parts: seq<string>)
    ensures |parts| == Count(s, d) + 1
    ensures forall k :: 0 <= k < |parts| ==> d !in parts[k]
  {
    if s == [] then [[]]
    else
      var rest := Split(s[1..], d);
      if s[0] == d then [[]] + rest else [[s[0]] + rest[0]] + rest[1..]
  }

  /** Python's `sep.join(parts)`. */
  function Join(parts: seq<string>, sep: string): string {
    if parts == [] then []
    else if |parts| == 1 then parts[0]
    else parts[0] + sep + Join(parts[1..], sep)
  }

  /** Joining the pieces of a split with the separator gives back the original. */
  lemma {:induction false} JoinSplit(s: string, d: char)
    ensures Join(Split(s, d), [d]) == s
  {
    if s != [] {
      var rest := Split(s[1..], d);
      JoinSplit(s[1..], d);
      if s[0] == d {
        assert Split(s, d) == [[]] + rest;
      } else if |rest| == 1 {
        assert Split(s, d) == [[s[0]] + rest[0]];
      } else {
        var parts := Split(s, d);
        assert parts == [[s[0]] + rest[0]] + rest[1..];
        assert parts[1..] == rest[1..];
        assert Join(rest, [d]) == rest[0] + [d] + Join(rest[1..], [d]);
      }
    }
  }

  /** Splitting a join of separator-free pieces gives back the pieces. */
  lemma {:induction false} SplitJoin(parts: seq<string>, d: char)
    requires |parts| >= 1
    requires forall k :: 0 <= k < |parts| ==> d !in parts[k]
    ensures Split(Join(parts, [d]), d) == parts
    decreases |parts|, |parts[0]|
  {
    if |parts| == 1 {
      SplitWithout(parts[0], d);
    } else if parts[0] == [] {
      var tail := parts[1..];
      SplitJoin(tail, d);
      assert Join(parts, [d]) == [d] + Join(tail, [d]);
      assert ([d] + Join(tail, [d]))[1..] == Join(tail, [d]);
    } else {
      var c := parts[0][0];
      var shorter := [parts[0][1..]] + parts[1..];
      assert forall k :: 0 <= k < |shorter| ==> d !in shorter[k] by {
        forall k | 0 <= k < |shorter| ensures d !in shorter[k] {
          if k == 0 { assert forall x :: x in parts[0][1..] ==> x in parts[0]; }
          else { assert shorter[k] == parts[k]; }
        }
      }
      SplitJoin(shorter, d);
      var whole := Join(parts, [d]);
      JoinShorter(parts, d);
      assert whole[1..] == Join(shorter, [d]);
      assert c != d by { assert c in parts[0]; }
      assert Split(whole, d) == [[c] + shorter[0]] + shorter[1..];
      assert [c] + shorter[0] == parts[0];
      assert shorter[1..] == parts[1..];
      assert [parts[0]] + parts[1..] == parts;
    }
  }

  /** Joining pieces whose first piece is not empty starts with that piece's
      first character, followed by the join with that character removed. */
  lemma JoinShorter(parts: seq<string>, d: char)
    requires |parts| >= 2 && parts[0] != []
    ensures Join(parts, [d]) == [parts[0][0]] + Join([parts[0][1..]] + parts[1..], [d])
  {
    var c, p := parts[0][0], parts[0][1..];
    var shorter := [p] + parts[1..];
    var j := Join(parts[1..], [d]);
    assert shorter[1..] == parts[1..];
    assert Join(shorter, [d]) == (p + [d]) + j;
    assert parts[0] == [c] + p;
    assert Join(parts, [d]) == (([c] + p) + [d]) + j;
    ConsAppend(c, p, [d]);
    ConsAppend(c, p + [d], j);
  }

  lemma {:induction false} SplitWithout(s: string, d: char)
    requires d !in s
    ensures Split(s, d) == [s]
  {
    if s != [] {
      assert forall x :: x in s[1..] ==> x in s;
      SplitWithout(s[1..], d);
      assert [s[0]] + s[1..] == s;
    }
  }

  function Digit(n: nat): char
    requires n < 10
  {
    ('0' as int + n) as char
  }

  /** Python's `str(n)` for a non-negative integer. */
  function NatToString(n: nat): (r: string)
    ensures |r| >= 1
    ensures forall i :: 0 <= i < |r| ==> '0' <= r[i] <= '9'
  {
    if n < 10 then [Digit(n)] else NatToString(n / 10) + [Digit(n % 10)]
  }

  /** Python's `str(i)` for any integer. */
  function IntToString(i: int): string {
    if i < 0 then "-" + NatToString(-i) else NatToString(i)
  }

  /** A function on sequences that maps each element to its own contribution
      and concatenates them distributes over concatenation. */
  lemma {:induction false} ConcatMapAppend<T, U>(f: seq<T> -> seq<U>, each: T -> seq<U>, a: seq<T>, b: seq<T>)
    requires f([]) == []
    requires forall x, r :: f([x] + r) == each(x) + f(r)
    ensures f(a + b) == f(a) + f(b)
  {
    if a == [] {
      assert a + b == b;
    } else {
      ConcatMapAppend(f, each, a[1..], b);
      assert a == [a[0]] + a[1..];
      assert a + b == [a[0]] + (a[1..] + b);
    }
  }

  /** Such a function keeps every contribution of every element. */
  lemma {:induction false} ConcatMapHas<T, U>(f: seq<T> -> seq<U>, each: T -> seq<U>, s: seq<T>, k: nat, y: U)
    requires f([]) == []
    requires forall x, r :: f([x] + r) == each(x) + f(r)
    requires k < |s| && y in each(s[k])
    ensures y in f(s)
  {
    assert s == [s[0]] + s[1..];
    if k > 0 {
      ConcatMapHas(f, each, s[1..], k - 1, y);
    }
  }

  /** `a` can be obtained from `b` by deleting elements. */
  predicate Subseq<T(==)>(a: seq<T>, b: seq<T>)
    decreases |b|
  {
    a == [] || (b != [] && ((a[0] == b[0] && Subseq(a[1..], b[1..])) || Subseq(a, b[1..])))
  }

  lemma {:induction false} SubseqRefl<T>(s: seq<T>)
    ensures Subseq(s, s)
  {
    if s != [] {
      SubseqRefl(s[1..]);
    }
  }

  lemma {:induction false} SubseqLength<T>(a: seq<T>, b: seq<T>)
    requires Subseq(a, b)
    ensures |a| <= |b|
    decreases |b|
  {
    if a != [] {
      if a[0] == b[0] && Subseq(a[1..], b[1..]) {
        SubseqLength(a[1..], b[1..]);
      } else {
        SubseqLength(a, b[1..]);
      }
    }
  }

  lemma {:induction false} SubseqTrans<T>(a: seq<T>, b: seq<T>, c: seq<T>)
    requires Subseq(a, b) && Subseq(b, c)
    ensures Subseq(a, c)
    decreases |c|
  {
    if a != [] {
      assert b != [] && c != [];
      if !(b[0] == c[0] && Subseq(b[1..], c[1..])) {
        SubseqTrans(a, b, c[1..]);
      } else if a[0] == b[0] && Subseq(a[1..], b[1..]) {
        SubseqTrans(a[1..], b[1..], c[1..]);
      } else {
        SubseqTrans(a, b[1..], c[1..]);
      }
    }
  }

  /** Anything obtained from a suffix of `b` by deletion is obtained from `b`. */
  lemma {:induction false} SubseqOfSuffix<T>(a: seq<T>, b: seq<T>, k: nat)
    requires k <= |b| && Subseq(a, b[k..])
    ensures Subseq(a, b)
    decreases k
  {
    if k > 0 {
      assert b[1..][k - 1..] == b[k..];
      SubseqOfSuffix(a, b[1..], k - 1);
    }
  }

  /** Every slice of `b` is a subsequence of it. */
  lemma {:induction false} SliceIsSubseq<T>(b: seq<T>, i: nat, j: nat)
    requires i <= j <= |b|
    ensures Subseq(b[i..j], b)
    decreases j - i
  {
    if i == j {
    } else {
      var a := b[i..j];
      SliceIsSubseq(b, i + 1, j);
      assert a[0] == b[i..][0];
      assert a[1..] == b[i + 1..j];
      // b[i..j] is a subsequence of b[i..], and hence of b.
      assert Subseq(a[1..], b[i..][1..]) by {
        assert b[i..][1..] == b[i + 1..];
        assert b[i + 1..j] == b[i + 1..][0..j - i - 1];
        SubseqPrefix(b[i + 1..], j - i - 1);
      }
      assert Subseq(a, b[i..]);
      SubseqOfSuffix(a, b, i);
    }
  }

  lemma {:induction false} SubseqPrefix<T>(b: seq<T>, n: nat)
    requires n <= |b|
    ensures Subseq(b[..n], b)
    decreases n
  {
    if n > 0 {
      SubseqPrefix(b[1..], n - 1);
      assert b[..n][1..] == b[1..][..n - 1];
    }
  }

  /** Keeping the first element of both sides preserves the relation. */
  lemma SubseqCons<T>(x: T, a: seq<T>, b: seq<T>)
    requires Subseq(a, b)
    ensures Subseq([x] + a, [x] + b)
  {
    assert ([x] + a)[1..] == a;
    assert ([x] + b)[1..] == b;
  }

  /** Deletion cannot introduce an element. */
  lemma {:induction false} SubseqNotIn<T>(x: T, a: seq<T>, b: seq<T>)
    requires Subseq(a, b) && x !in b
    ensures x !in a
    decreases |b|
  {
    if a != [] {
      assert b[0] != x;
      assert forall y :: y in b[1..] ==> y in b;
      if a[0] == b[0] && Subseq(a[1..], b[1..]) {
        SubseqNotIn(x, a[1..], b[1..]);
        assert a == [a[0]] + a[1..];
      } else {
        SubseqNotIn(x, a, b[1..]);
      }
    }
  }

  /** Every element of a subsequence is an element of the whole. */
  lemma {:induction false} SubseqIn<T>(x: T, a: seq<T>, b: seq<T>)
    requires Subseq(a, b) && x in a
    ensures x in b
  {
    if x !in b {
      SubseqNotIn(x, a, b);
    }
  }

  /** What a sequence lacks, its tail lacks too. */
  lemma NotInTail<T>(x: T, s: seq<T>)
    requires s != [] && x !in s
    ensures x !in s[1..]
  {
  }

  /** Dropping part of the first operand of a concatenation. */
  lemma DropAppend<T>(s: seq<T>, t: seq<T>, n: nat)
    requires n <= |s|
    ensures (s + t)[n..] == s[n..] + t
  {
  }

  /** Concatenation after a leading element regroups. */
  lemma ConsAppend<T>(x: T, a: seq<T>, b: seq<T>)
    ensures [x] + (a + b) == ([x] + a) + b
  {
  }

  /** A stripped string only loses characters. */
  lemma StripIsSubseq(s: string)
    ensures Subseq(Strip(s), s)
  {
    var r := Strip(s);
    var i := LeadingSpace(s);
    StripSpec(s);
    SliceIsSubseq(s, i, i + |r|);
  }
}
